=== FILE: README.md ===
# JSTools core in Dafny

This project models three parts of the JSTools C# library and proves properties of the models.

- **`JS.Tools.Sql` transaction coordination.**
  - `SqlManager` keeps a stack of nested `TransactionManager` scopes.
  - It opens one database transaction lazily, on the first participating `ManagedConnection` request.
  - When the last scope leaves, it commits that transaction, or rolls it back if any scope asked for a rollback.
- **`SharedDisposableScope<T>`.** One disposable item is shared by several handles. The release of the last live handle disposes the item, or runs the override action instead, and then disposes the scope-held objects.
- **`DateTimeRange`.** Overlap tests, the overlap length and range, the interval length and the list of calendar dates, with `DateTime` represented as its tick count.

## How the model is built

- **Values, not objects.** Every C# object is an immutable Dafny value, and each operation returns the next state.
  - The database driver is not modelled. Every call the coordinator makes on it becomes an event appended to the manager's `log`: a new connection, `BeginTransaction`, `Commit`, `Rollback`, or `Dispose` of a transaction or connection.
  - Object identity comes from an allocation counter (`nextRef`).
- **Exceptions.** A thrown exception is a `Failure` value. The public `Sql` operations return the manager state after the throw together with the result. For every misuse error, that state is proved to equal the state before the call. The one exception is a refused `CreateTransactionManager`: the scope object already exists, so the allocation counter has advanced.
- **Modules.**
  - `Wrappers`: `Option` and `Result`.
  - `DbDriver`: isolation levels, driver events, event counting and the transaction protocol the driver calls follow.
  - `Sql`: the three coordinator classes.
  - `SqlRuns`: theorems about whole runs of operations.
  - `SharedDisposable`: the shared scope and its handles.
  - `DateTimes`: `DateTimeRange`.
- **The invariant `Sql.Valid`.** The `SqlManager` and `TransactionManager` operations require it, and they and `NewManager` are proved to establish it. `ManagedConnection.Dispose` needs no invariant. It keeps the invariant for every handle that meets `Sql.Releasable` (`Sql.DisposeKeepsValid`). Every handle the manager issues meets it (`Sql.IssuedHandleIsReleasable`) and goes on meeting it across later coordinator operations, scope calls and other releases (`SqlRuns.RunKeepsReleasable`, `SqlRuns.CallKeepsReleasable`, `SqlRuns.NewScopeKeepsReleasable`, `Sql.ReleaseKeepsReleasable`). It says:
  - a manager transaction runs exactly while a scope is registered;
  - a database transaction is open only inside a manager transaction;
  - the driver calls follow the transaction protocol (`DbDriver.Replay`): a `Begin` only when no transaction is open; then one `Commit` or `Rollback` naming that transaction; then the disposal of that transaction; then the disposal of its connection;
  - the protocol stands where the manager's fields say: the open pair is the one last begun, or nothing is open;
  - there are as many `Begin` calls as `Commit` and `Rollback` calls, plus one while a database transaction is open.

Two behaviours of the code to note:

- **The isolation level binds to the first registered scope.** This holds even when that scope requested no level (`SqlManager.cs:94-103`). A later scope that asks for `RepeatableRead` is then refused. It is not the case that the first scope with a level wins.
- **No cleanup on driver failure.** Nothing releases the connection if `Commit` or `Rollback` throws. `CompleteTransactionManagerScope` has no `try`/`finally`, so driver failure is left out rather than modelled as a cleanup.

## Model

| member | source | states |
|---|---|---|
| `Sql.NewManager` | JS.Tools.Sql/SqlManager.cs:34-40 | A new manager satisfies the invariant and is idle: no transaction, no scopes, no database pair, no driver calls. |
| `Sql.StrayCommitIsNotValid` | JS.Tools.Sql/SqlManager.cs:117-132 | A log whose counts balance but whose `Commit` names a transaction that was never begun breaks the invariant. The manager only commits or rolls back the transaction it opened. |
| `DbDriver.StrayOutcomeBreaksProtocol` | JS.Tools.Sql/SqlManager.cs:117-132 | With no transaction open, any `Commit` or `Rollback` breaks the protocol. |
| `DbDriver.BeginOpens` | JS.Tools.Sql/SqlManager.cs:153-171 | From the closed phase, a new connection and a `Begin` on it leave that connection and transaction open. |
| `DbDriver.SettleCloses` | JS.Tools.Sql/SqlManager.cs:117-190 | With a pair open, its outcome, the disposal of its transaction and then of its connection close the protocol again. |
| `Sql.BeginManagerTransaction` | JS.Tools.Sql/SqlManager.cs:135-144 | Fails exactly when a manager transaction is already running. Otherwise it starts one, records the requested level (possibly none) and clears the rollback flag. No other field changes. |
| `Sql.EndManagerTransaction` | JS.Tools.Sql/SqlManager.cs:146-151 | Fails when no manager transaction runs, or when a database transaction is still open. Otherwise it only clears the in-progress flag and calls no driver. |
| `Sql.BeginDbTransaction` | JS.Tools.Sql/SqlManager.cs:153-171 | Fails exactly when a database transaction is open. Otherwise the driver sees a new connection and a `Begin` at the manager's recorded isolation level. Both objects are distinct, newly allocated and never seen before, and nothing else changes. |
| `Sql.EndDbTransaction` | JS.Tools.Sql/SqlManager.cs:173-190 | Fails exactly when no database transaction is open. Otherwise it disposes the transaction, then the connection, and forgets both. |
| `Sql.GetTransactionConnection` | JS.Tools.Sql/SqlManager.cs:74-77 | A shared connection is returned exactly when a database transaction is open. |
| `Sql.GetTransaction` | JS.Tools.Sql/SqlManager.cs:84-89 | A transaction is returned exactly when a database transaction is open. |
| `Sql.GetNonTransactionConnection` | JS.Tools.Sql/SqlManager.cs:79-82 | Produces a connection never seen before, distinct from the shared pair. The driver sees only its creation. |
| `Sql.Register` | JS.Tools.Sql/SqlManager.cs:91-106 | Refused, with the manager unchanged, exactly when a transaction runs and the scope asks for a level other than the recorded one. Otherwise the scope is pushed and no object is allocated. The first registration starts the transaction with the scope's level and a clear rollback flag; later ones keep both. |
| `Sql.Settle` | JS.Tools.Sql/SqlManager.cs:117-132 | When the stack has drained, an open database transaction gets one `Rollback` (if the flag is set) or one `Commit`, then the transaction and connection are disposed. The manager ends idle and valid. No new `Begin` is issued. |
| `Sql.SettledPairIsValid` | JS.Tools.Sql/SqlManager.cs:117-132 | Deciding the open pair and releasing it leaves a valid manager once the manager transaction ends, with exactly one more outcome and no new `Begin`. |
| `Sql.CompleteScope` | JS.Tools.Sql/SqlManager.cs:108-133 | Fails, with the manager unchanged, exactly when the stack is empty or the scope is not on top. Otherwise the scope is popped and the rollback flag absorbs the request. An inner scope causes no driver call. The last scope leaves the manager idle, and the driver sees the commit or rollback and the two disposals exactly when a database transaction was open. A completion never begins a database transaction. |
| `Sql.NewManagedConnection` | JS.Tools.Sql/ManagedConnection.cs:12-26 | Inside a manager transaction, a participating handle borrows the shared pair and does not release it. Otherwise the handle owns a fresh private connection and has no transaction. |
| `Sql.CreateManagedConnection` | JS.Tools.Sql/SqlManager.cs:42-50 | Always succeeds and keeps the invariant. The driver sees exactly one new `Begin` exactly when a participating request arrives inside a manager transaction with no database transaction open. No commit or rollback is issued. A participating request that finds the pair open changes nothing. A lazy begin changes only the pair, the counter and the log, and the new connection and transaction are distinct objects that were not allocated or seen before. A private connection changes only the counter and the log. The handle borrows the shared pair or owns a newly allocated connection, as above. |
| `Sql.BegunPairIsValid` | JS.Tools.Sql/SqlManager.cs:153-171 | Beginning the database transaction inside a manager transaction keeps the invariant and adds exactly one `Begin` and no outcome. |
| `Sql.PrivateConnectionIsValid` | JS.Tools.Sql/SqlManager.cs:79-82 | Creating a private connection keeps the invariant and adds no `Begin` and no outcome. |
| `Sql.CreateManagedConnectionAsync` | JS.Tools.Sql/SqlManager.cs:52-60 | Behaves exactly like `CreateManagedConnection`. |
| `Sql.DisposeManagedConnection` | JS.Tools.Sql/ManagedConnection.cs:28-41 | A borrowing handle changes nothing. An owning handle disposes only its own transaction (first) and its own connection (last), and nothing else changes. |
| `Sql.DisposeKeepsValid` | JS.Tools.Sql/ManagedConnection.cs:28-41 | Disposing a borrowing handle, or one that owns an allocated private connection other than the shared one and no transaction, keeps the invariant. |
| `Sql.IssuedHandleIsReleasable` | JS.Tools.Sql/ManagedConnection.cs:12-26 | Every handle the manager has just issued is one that `DisposeKeepsValid` accepts. |
| `Sql.ReleaseKeepsReleasable` | JS.Tools.Sql/ManagedConnection.cs:28-41 | Releasing one handle leaves every other releasable handle releasable. |
| `Sql.AllocationKeepsValid` | JS.Tools.Sql/TransactionManager.cs:16-27 | Allocating a new object identity keeps the invariant. |
| `Sql.RequiredLevelFor` | JS.Tools.Sql/TransactionManager.cs:21-24 | A scope demands a level exactly when it asks for repeatable read, and that level is `RepeatableRead`. |
| `Sql.CreateTransactionManager` | JS.Tools.Sql/TransactionManager.cs:16-27 | The new scope is open and fresh, and its required level is `RepeatableRead` exactly when requested. Registration is refused exactly when a transaction runs at a level other than `RepeatableRead` and `RepeatableRead` was requested. On success the scope is on top of the stack and exactly one object, the scope, has been allocated. |
| `Sql.Complete` | JS.Tools.Sql/TransactionManager.cs:29-34 | Fails, with manager and scope unchanged, when the scope is already complete or is not on top of the stack. Otherwise the scope becomes complete after the manager completes it without a rollback request. |
| `Sql.RollBack` | JS.Tools.Sql/TransactionManager.cs:36-41 | The same as `Complete`, with a rollback request. |
| `Sql.Dispose` | JS.Tools.Sql/TransactionManager.cs:43-49 | A complete scope is left alone. An open scope is rolled back, with the failure cases of `RollBack`. |
| `SqlRuns.HandleReleasesOnlyWhatItOwns` | JS.Tools.Sql/ManagedConnection.cs:12-41 | A handle obtained from the manager and then disposed never disposes the shared connection or transaction. An owning handle releases exactly its own connection. |
| `SqlRuns.CallKeepsReleasable` | JS.Tools.Sql/TransactionManager.cs:29-49 | A scope's `Complete`, `RollBack` or `Dispose` keeps a held handle releasable, in any manager state. |
| `SqlRuns.NewScopeKeepsReleasable` | JS.Tools.Sql/TransactionManager.cs:16-27 | Creating a new scope, refused or not, keeps a held handle releasable. |
| `SqlRuns.OpKeepsReleasable` | JS.Tools.Sql/SqlManager.cs:42-133 | Any successful registration, completion or connection request keeps a held handle releasable: a lazily begun shared connection is never the handle's own. |
| `SqlRuns.RunKeepsReleasable` | JS.Tools.Sql/SqlManager.cs:42-133 | A held handle stays releasable across any successful run of operations. |
| `SqlRuns.UsingBlockKeepsValid` | JS.Tools.Sql/ManagedConnection.cs:12-41 | A connection obtained from the manager, then any successful run of operations, then the connection's release, as in a `using` block around other work, leaves a manager that satisfies the invariant. |
| `SqlRuns.ConnectThenReleaseKeepsValid` | JS.Tools.Sql/ManagedConnection.cs:12-41 | A connection obtained from the manager and then disposed, as in a `using` block, leaves a manager that satisfies the invariant, so the scope can still complete. |
| `SqlRuns.AtMostOneCompletion` | JS.Tools.Sql/TransactionManager.cs:29-49 | Whatever sequence of `Complete`, `RollBack` and `Dispose` calls a scope receives, and whatever state the manager is in at each, at most one of them completes the scope in the manager. None does if the scope was already complete. |
| `SqlRuns.Run` | JS.Tools.Sql/SqlManager.cs:42-133 | Any run of registrations, completions and connection requests keeps the invariant and only appends driver calls. |
| `SqlRuns.InsideOneTransaction` | JS.Tools.Sql/SqlManager.cs:42-133 | While a manager transaction started from idle is still running: the rollback flag is set exactly when some scope rolled back; a database transaction is open exactly when a participating connection was requested; the driver has seen at most that one `Begin` and no outcome. |
| `SqlRuns.OpenPairWasBegun` | JS.Tools.Sql/SqlManager.cs:42-106 | While a manager transaction started from idle runs, its level is the one the first registered scope asked for. An open pair is the one named by a `Begin` of this run. |
| `SqlRuns.FirstStepEnters` | JS.Tools.Sql/SqlManager.cs:91-106 | On an idle manager, only a scope registration starts a manager transaction. It calls no driver, clears the rollback flag, opens no database transaction and records the level the scope asked for. |
| `SqlRuns.StepInside` | JS.Tools.Sql/SqlManager.cs:42-133 | An operation that leaves a manager transaction running: a rollback request sets the flag for good, a participating connection request opens the database transaction if none is open, and no outcome reaches the driver. |
| `SqlRuns.StepInsideDelta` | JS.Tools.Sql/SqlManager.cs:42-133 | The same step, counted over the driver calls made since the manager transaction began. |
| `SqlRuns.StepInsideKeepsPair` | JS.Tools.Sql/SqlManager.cs:42-133 | Such an operation keeps the level and an already open pair. A pair it opens has its `Begin` as the latest driver call. |
| `SqlRuns.LastLeaveSettles` | JS.Tools.Sql/SqlManager.cs:108-133 | Only the completion of the last scope ends a manager transaction. It adds one `Commit` or one `Rollback` (per the flag and its own request) exactly when a database transaction was open. |
| `SqlRuns.LastLeaveClosesPair` | JS.Tools.Sql/SqlManager.cs:108-133 | The same completion call by call: with a pair open, the outcome for that transaction, its disposal and then its connection's disposal are appended; otherwise there are no driver calls. |
| `SqlRuns.OneOutcomePerManagerTransaction` | JS.Tools.Sql/SqlManager.cs:42-190 | Over one whole manager transaction, the driver sees at most one `Begin`, exactly when a participating connection was requested. It sees as many `Commit` and `Rollback` calls as `Begin` calls. The outcome is `Rollback` exactly when some scope rolled back. |
| `SqlRuns.OutcomeClosesTheBegunPair` | JS.Tools.Sql/SqlManager.cs:42-190 | The same manager transaction, by identity and in order. When a participating connection was requested, the last three driver calls are the outcome for the begun transaction, its disposal, and the disposal of its connection. The `Begin` of that pair came earlier in the run, at the level the first scope asked for. The first operation was a registration. |
| `SqlRuns.BeforeTheLastLeave` | JS.Tools.Sql/SqlManager.cs:42-133 | Just before the last scope leaves: the database transaction is open exactly when a participating connection was requested, and its `Begin` was in this run. The rollback flag, together with the last request, is set exactly when some scope rolled back. |
| `SqlRuns.ClosingCalls` | JS.Tools.Sql/SqlManager.cs:117-132 | The completion that ends a manager transaction with a pair open appends the outcome for that transaction, its disposal and its connection's disposal. The `Begin` stays before them. |
| `SqlRuns.NestedScopesCommitOnce` | JS.Tools.Sql/SqlManager.cs:42-133 | Scope A, a participating connection, nested scope B, then B and A complete: the driver sees exactly a new connection, one `Begin`, one `Commit`, and the disposal of the transaction and then the connection. The manager ends idle. |
| `SqlRuns.AbortedScopeRollsBackOnce` | JS.Tools.Sql/SqlManager.cs:108-133 | Scope A, a participating connection, then A rolls back: the driver sees exactly a new connection, one `Begin`, one `Rollback` and both disposals. The manager ends idle. |
| `SqlRuns.UnusedScopeNeverCallsTheDriver` | JS.Tools.Sql/SqlManager.cs:42-50 | A scope that completes without any connection request causes no driver call at all. |
| `SharedDisposable.NewScope` | JS.Tools/SharedDisposable/SharedDisposableScope.cs:81-91 | A null item is refused with `ArgumentNull`. Otherwise the scope holds the item with a count of zero. |
| `SharedDisposable.GetHandle` | JS.Tools/SharedDisposable/SharedDisposableScope.cs:98-107 | Refused with `ObjectDisposed` exactly when the item is gone. Otherwise the count rises by one and the handle sees the item. |
| `SharedDisposable.DisposeItem` | JS.Tools/SharedDisposable/SharedDisposableScope.cs:109-138 | Does nothing once the item is gone. At a count of one it disposes the item (or runs the override), clears it, resets the count and disposes every held object in order. At any other count it only decrements. The item is disposed at most once per call. |
| `SharedDisposable.HandleItem` | JS.Tools/SharedDisposable/SharedDisposableScope.cs:61 | A handle yields its item exactly when it is not disposed. |
| `SharedDisposable.HandleIsDisposed` | JS.Tools/SharedDisposable/SharedDisposableScope.cs:63 | A handle reports itself disposed exactly when it no longer holds the item reference. Every disposed handle is the same value. |
| `SharedDisposable.HandleDispose` | JS.Tools/SharedDisposable/SharedDisposableScope.cs:65-72 | Afterwards the handle is disposed. The first call releases one share, and later calls change nothing. |
| `SharedDisposable.HandleGetHandle` | JS.Tools/SharedDisposable/SharedDisposableScope.cs:74-78 | A disposed handle refuses with `ObjectDisposed`. A live one asks the scope for a new handle. |
| `SharedDisposable.HeldEvents` | JS.Tools/SharedDisposable/SharedDisposableScope.cs:128-131 | Disposing the held objects never disposes the item itself. |
| `SharedDisposable.NewPoolAccounted` | JS.Tools/SharedDisposable/SharedDisposableScope.cs:87-91 | A new scope with no handles satisfies the accounting invariant. |
| `SharedDisposable.PoolStepKeepsAccounting` | JS.Tools/SharedDisposable/SharedDisposableScope.cs:50-138 | Issuing and releasing handles keeps the invariant: while the item is held, the count equals the number of live handles, all of which see the item, and the item was never disposed. A live release lowers the live count by one and disposes the item exactly when it reaches zero. Issuing fails exactly on a disposed scope or handle. |
| `SharedDisposable.DisposedWhenAllReleased` | JS.Tools/SharedDisposable/SharedDisposableScope.cs:109-138 | Under the invariant, the item is disposed at most once. It has been disposed exactly when at least one handle was issued and every issued handle has been released. |
| `DateTimes.IntervalTimeSpan` | JS.Tools/DateTimes/DateTimeRange.cs:16-22 | Start plus span is the end. The span is non-negative exactly for a forward range. |
| `DateTimes.OverlappingTicksWith` | JS.Tools/DateTimes/DateTimeRange.cs:30-37 | Zero exactly when the earliest finish is not after the latest start. Otherwise it is the gap between them. |
| `DateTimes.IsOverlappingWith` | JS.Tools/DateTimes/DateTimeRange.cs:24-28 | For nonempty ranges, the ranges overlap exactly when the later of the two starts lies in both. Ranges that only touch do not overlap. |
| `DateTimes.CalculateOverlappingRangeWith` | JS.Tools/DateTimes/DateTimeRange.cs:39-45 | Refused exactly when the ranges do not overlap. Otherwise the result starts at the later start and ends at the earlier end: each end is an end of one of the ranges, and it lies inside both. It contains an instant exactly when both ranges contain it. |
| `DateTimes.OverlapIsSymmetricAndStrict` | JS.Tools/DateTimes/DateTimeRange.cs:24-28 | Overlap is symmetric, and ranges that only touch do not overlap. |
| `DateTimes.OverlapMeansSharedInstant` | JS.Tools/DateTimes/DateTimeRange.cs:24-28 | For nonempty ranges, overlapping is the same as sharing an instant. |
| `DateTimes.OverlapLengthMatchesOverlapRange` | JS.Tools/DateTimes/DateTimeRange.cs:30-45 | For ranges that do not run backwards, a positive overlap length means the ranges overlap. For overlapping ranges it equals the length of the overlap range. It is symmetric and bounded by both lengths. |
| `DateTimes.OverlapLengthPositiveIffOverlapping` | JS.Tools/DateTimes/DateTimeRange.cs:24-37 | For nonempty ranges, the overlap length is positive exactly when the ranges overlap. |
| `DateTimes.EmptyRangeOverlapsWithoutLength` | JS.Tools/DateTimes/DateTimeRange.cs:24-37 | A backward or zero-length range can count as overlapping while sharing no instant and having zero overlap length. |
| `DateTimes.DateOf` | JS.Tools/DateTimes/DateTimeRange.cs:51 | The date is the midnight at or before the instant, less than one day before it. |
| `DateTimes.AddOneDay` | JS.Tools/DateTimes/DateTimeRange.cs:55 | Fails exactly when the next day would be past `DateTime.MaxValue`. Otherwise it is one day later. |
| `DateTimes.CalendarDaysSpanTheRange` | JS.Tools/DateTimes/DateTimeRange.cs:47-58 | The listed dates run from the start's date to the end's date, one day apart, each a valid midnight. There are none exactly when the end's date is earlier. |
| `DateTimes.GetDatesInRangeAsWritten` | JS.Tools/DateTimes/DateTimeRange.cs:47-58 | Throws `ArgumentOutOfRange` exactly when the end's date is 9999-12-31 and not before the start's date. Otherwise it returns the calendar days. |
| `DateTimes.GetDatesInRange` | JS.Tools/DateTimes/DateTimeRange.cs:47-58 | Returns exactly the calendar days from the start's date to the end's date, for every range. |
| `DateTimes.MaxValueRangeReachesLastDay` | JS.Tools/DateTimes/DateTimeRange.cs:52-56 | The range from `DateTime.MaxValue` to itself lists one date, 9999-12-31, and adding a day to that date fails. |

## Left out

- **Configuration and providers.** The constructors' configuration lookup, the provider factory and `CreateDbConnection` (`SqlManager.cs:26-40, 67-72`) are not modelled. A new connection is a fresh identity.
- **Null arguments.** The `ArgumentNullException` checks on a null manager, scope or `SqlManager` cannot arise for Dafny values, so they are not modelled. The null *item* of a shared scope is modelled.
- **Driver behaviour.** Driver failures are not modelled: `BeginTransaction`, `Commit` or `Rollback` throwing. Nor is the connection's own state, such as opening it. The coordinator never opens the connection itself.
- **Internal errors.** `Settle` propagates `NoDbTransaction` from `EndDbTransaction` (`SqlManager.cs:188`) and `NoManagerTransaction` or `DbTransactionStillOpen` from `EndManagerTransaction` (`:148-149`). `CreateManagedConnection` propagates `DbTransactionRunning` from `BeginDbTransaction` (`:157`). The invariant shows none of these can happen there.
- **Concurrency.** The lock in `SharedDisposableScope` and the unlocked first test of `DisposeItem` are not modelled; the model is sequential. Tasks and asynchronous calls are not modelled either: the `Async` variant is synchronous in the code.
- **Other classes.** The factory class `SharedDisposableScope.Create` (`SharedDisposableScope.cs:10-35`) only forwards to the constructors. `SimpleUnitOfWork` is an alias of `TransactionManager` and is not part of this model.
- **Failures while disposing a shared item.** Disposal failures are not modelled. In the code, if the override or `item.Dispose()` throws (`SharedDisposableScope.cs:119, 123`), `_item` stays set and the count stays at one. If a held object's `Dispose` throws (`:128-131`), the remaining held objects are skipped. In both cases the handle's `_item = null` (`:71`) never runs, so the handle stays live. A null entry in the held collection also throws there.
- **The held collection.** It is read when the item is disposed, so changes made to it after construction are seen. The model takes it as a fixed list of identities given at construction. Those identities are `nat`s and the item is a `T`, so a held object can never be the item itself. In the code nothing stops a caller from passing the item among the held objects (the doc comment at `SharedDisposableScope.cs:29` only asks for "other" references), and the loop at `:130` would then dispose it a second time. `SharedDisposable.HeldEvents` and the "disposed at most once" part of `SharedDisposable.DisposedWhenAllReleased` rely on this separation.
- **Handle releases inside runs.** `SqlRuns.Op` has no handle release, so the run theorems do not cover logs with releases between operations. A release appends only the `DisposeConn` of a private connection. By `Sql.DisposeKeepsValid`, `SqlRuns.RunKeepsReleasable` and `SqlRuns.UsingBlockKeepsValid`, a release keeps the invariant at any later point.
- `SharedDisposable.GetHandle`: the count is an unbounded integer. In the code `_refCount` is a 32-bit `int` (`SharedDisposableScope.cs:44`) and `_refCount++` (`:103`) is unchecked, so it would wrap around after 2^31 outstanding handles. The model does not represent that wrap-around, which is unreachable in practice.
- **Effects on the item.** The dispose-action override and the item's own `Dispose` are not modelled; only their invocation is logged.
- `DateTimes.OverlappingTicksWith`: the overlap is measured in ticks. The source returns `TimeSpan.TotalMinutes` as a `double`, and that floating-point division is not modelled.

## Findings

| source | as written | input that shows it | evidently intended | confidence | as-written member | corrected member |
|---|---|---|---|---|---|---|
| JS.Tools/DateTimes/DateTimeRange.cs:52-56 | After adding the last date, the loop still calls `AddDays(1)` on it. That throws `ArgumentOutOfRangeException` when the date is 9999-12-31. | `new DateTimeRange(DateTime.MaxValue, DateTime.MaxValue).GetDatesInRange()` | Return `[9999-12-31]`: every date from the start's date to the end's date. | medium, not executed | `DateTimes.GetDatesInRangeAsWritten` | `DateTimes.GetDatesInRange` |

=== FILE: date_times.dfy ===
/** `DateTimeRange` of `JS.Tools.DateTimes`. A `DateTime` is its tick count
    (100-nanosecond units since 0001-01-01), between 0 and the tick count of
    `DateTime.MaxValue`; the time of day is the remainder modulo one day. */
module DateTimes {
  import opened Wrappers

  const TicksPerDay: int := 864_000_000_000
  const MaxTicks: int := 3_155_378_975_999_999_999

  /** Day number of `DateTime.MaxValue` (9999-12-31). */
  const LastDay: int := MaxTicks / TicksPerDay

  type Ticks = t: int | 0 <= t <= MaxTicks

  datatype Error = RangesDoNotOverlap | ArgumentOutOfRange

  /** The constructor accepts any two instants, in either order. */
  datatype DateTimeRange = DateTimeRange(start: Ticks, end: Ticks)

  /** The range does not run backwards. */
  predicate WellFormed(r: DateTimeRange) {
    r.start <= r.end
  }

  /** The range runs forwards and covers at least one tick. */
  predicate NonEmpty(r: DateTimeRange) {
    r.start < r.end
  }

  /** Instant `t` lies in the range, start included, end excluded. */
  predicate Contains(r: DateTimeRange, t: int) {
    r.start <= t < r.end
  }

  /** `IntervalTimeSpan`, in ticks. */
  function IntervalTimeSpan(r: DateTimeRange): (span: int)
    ensures WellFormed(r) <==> span >= 0
    ensures r.start + span == r.end
  {
    r.end - r.start
  }

  /** `IsOverlappingWith`: strict on both sides. For nonempty ranges it holds
      exactly when the later of the two starts lies in both ranges; ranges
      that only touch do not overlap. */
  function IsOverlappingWith(a: DateTimeRange, b: DateTimeRange): (r: bool)
    ensures NonEmpty(a) && NonEmpty(b) ==>
      (r <==> Contains(a, LatestStart(a, b)) && Contains(b, LatestStart(a, b)))
    ensures a.end == b.start || b.end == a.start ==> !r
  {
    a.start < b.end && a.end > b.start
  }

  function LatestStart(a: DateTimeRange, b: DateTimeRange): Ticks {
    if a.start < b.start then b.start else a.start
  }

  function EarliestFinish(a: DateTimeRange, b: DateTimeRange): Ticks {
    if a.end < b.end then a.end else b.end
  }

  /** `GetOverlappingTotalMinutesWith`, measured in ticks rather than minutes:
      the length of the shared part, or zero when there is none. */
  function OverlappingTicksWith(a: DateTimeRange, b: DateTimeRange): (r: nat)
    ensures r > 0 ==> r == EarliestFinish(a, b) - LatestStart(a, b)
    ensures r == 0 <==> EarliestFinish(a, b) <= LatestStart(a, b)
  {
    var diff := EarliestFinish(a, b) - LatestStart(a, b);
    if diff > 0 then diff else 0
  }

  /** `CalulateOverlappingDateTimeRangeWith`: the shared part of two overlapping
      ranges; refused when they do not overlap. */
  function CalculateOverlappingRangeWith(a: DateTimeRange, b: DateTimeRange): (r: Result<DateTimeRange, Error>)
    ensures r.Failure? <==> !IsOverlappingWith(a, b)
    ensures r.Failure? ==> r.error == RangesDoNotOverlap
    ensures r.Success? ==>
      && a.start <= r.value.start && b.start <= r.value.start
      && r.value.end <= a.end && r.value.end <= b.end
    // each end of the result is an end of one of the two ranges
    ensures r.Success? ==>
      && (r.value.start == a.start || r.value.start == b.start)
      && (r.value.end == a.end || r.value.end == b.end)
    ensures r.Success? ==> forall t :: Contains(r.value, t) <==> Contains(a, t) && Contains(b, t)
  {
    if !IsOverlappingWith(a, b) then Failure(RangesDoNotOverlap)
    else Success(DateTimeRange(LatestStart(a, b), EarliestFinish(a, b)))
  }

  /** Overlap is symmetric, and ranges that only touch do not overlap. */
  lemma OverlapIsSymmetricAndStrict(a: DateTimeRange, b: DateTimeRange)
    ensures IsOverlappingWith(a, b) <==> IsOverlappingWith(b, a)
    ensures a.end == b.start || b.end == a.start ==> !IsOverlappingWith(a, b)
  {
  }

  /** For nonempty ranges, overlapping means sharing an instant. */
  lemma OverlapMeansSharedInstant(a: DateTimeRange, b: DateTimeRange)
    requires NonEmpty(a) && NonEmpty(b)
    ensures IsOverlappingWith(a, b) <==> exists t :: Contains(a, t) && Contains(b, t)
  {
    if IsOverlappingWith(a, b) {
      var t := LatestStart(a, b);
      assert Contains(a, t) && Contains(b, t);
    }
  }

  /** For ranges that do not run backwards, a positive overlap length means
      the ranges overlap, and for overlapping ones it is the length of the
      overlap range; it never exceeds either range. */
  lemma OverlapLengthMatchesOverlapRange(a: DateTimeRange, b: DateTimeRange)
    requires WellFormed(a) && WellFormed(b)
    ensures OverlappingTicksWith(a, b) > 0 ==> IsOverlappingWith(a, b)
    ensures IsOverlappingWith(a, b) ==>
      OverlappingTicksWith(a, b) == IntervalTimeSpan(CalculateOverlappingRangeWith(a, b).value)
    ensures OverlappingTicksWith(a, b) <= IntervalTimeSpan(a)
    ensures OverlappingTicksWith(a, b) <= IntervalTimeSpan(b)
    ensures OverlappingTicksWith(a, b) == OverlappingTicksWith(b, a)
  {
  }

  /** For nonempty ranges, the overlap length is positive exactly when they
      overlap. */
  lemma OverlapLengthPositiveIffOverlapping(a: DateTimeRange, b: DateTimeRange)
    requires NonEmpty(a) && NonEmpty(b)
    ensures OverlappingTicksWith(a, b) > 0 <==> IsOverlappingWith(a, b)
  {
  }

  /** A backward or zero-length range can count as overlapping although the
      two ranges share no instant and the overlap length is zero. */
  lemma EmptyRangeOverlapsWithoutLength()
    ensures var a := DateTimeRange(5, 3);
      var z := DateTimeRange(5, 5);
      var b := DateTimeRange(0, 10);
      && IsOverlappingWith(a, b) && IsOverlappingWith(z, b)
      && OverlappingTicksWith(a, b) == 0 && OverlappingTicksWith(z, b) == 0
      && !(exists t :: Contains(a, t) && Contains(b, t))
      && !(exists t :: Contains(z, t) && Contains(b, t))
  {
  }

  // ---------------------------------------------------------------------------
  // Calendar days

  /** `DateTime.Date`: midnight of the instant's day. */
  function DateOf(t: Ticks): (d: Ticks)
    ensures d <= t < d + TicksPerDay
    ensures d % TicksPerDay == 0
  {
    (t / TicksPerDay) * TicksPerDay
  }

  /** `DateTime.AddDays(1)`: refused when the result is past `DateTime.MaxValue`. */
  function AddOneDay(t: Ticks): (r: Result<Ticks, Error>)
    ensures r.Failure? <==> t + TicksPerDay > MaxTicks
    ensures r.Success? ==> r.value == t + TicksPerDay
  {
    if t + TicksPerDay <= MaxTicks then Success(t + TicksPerDay) else Failure(ArgumentOutOfRange)
  }

  /** Every calendar day from the start's date to the end's date, inclusive:
      midnight of consecutive day numbers. */
  function CalendarDays(r: DateTimeRange): seq<int> {
    var first := r.start / TicksPerDay;
    var last := r.end / TicksPerDay;
    if last < first then []
    else seq(last - first + 1, i => (first + i) * TicksPerDay)
  }

  /** The calendar days run from the start's date to the end's date, one day
      apart, each a valid midnight; none when the end's date is earlier. */
  lemma CalendarDaysSpanTheRange(r: DateTimeRange)
    ensures var days := CalendarDays(r);
      && (|days| == 0 <==> DateOf(r.end) < DateOf(r.start))
      && (|days| > 0 ==> days[0] == DateOf(r.start) && days[|days| - 1] == DateOf(r.end))
      && (forall i :: 0 <= i < |days| ==> 0 <= days[i] <= MaxTicks && days[i] % TicksPerDay == 0)
      && (forall i :: 0 < i < |days| ==> days[i] == days[i - 1] + TicksPerDay)
  {
  }

  /** `GetDatesInRange` as written: after adding the last date it still calls
      `AddDays(1)`, which throws when that date is 9999-12-31. */
  method GetDatesInRangeAsWritten(r: DateTimeRange) returns (res: Result<seq<int>, Error>)
    ensures res.Failure? <==> r.start / TicksPerDay <= r.end / TicksPerDay == LastDay
    ensures res.Failure? ==> res.error == ArgumentOutOfRange
    ensures res.Success? ==> res.value == CalendarDays(r)
  {
    var first := r.start / TicksPerDay;
    var last := r.end / TicksPerDay;
    var dates: seq<int> := [];
    var current: Ticks := DateOf(r.start);
    while current <= DateOf(r.end)
      invariant current == (first + |dates|) * TicksPerDay
      invariant first <= last + 1 ==> first + |dates| <= last + 1
      invariant first > last ==> dates == []
      invariant forall i :: 0 <= i < |dates| ==> dates[i] == (first + i) * TicksPerDay
      decreases MaxTicks - current
    {
      dates := dates + [current];
      var next := AddOneDay(current);
      if next.Failure? {
        return Failure(next.error);
      }
      current := next.value;
    }
    return Success(dates);
  }

  /** `GetDatesInRange` as intended: every date from the start's date to the
      end's date, stopping without stepping past the end. */
  method GetDatesInRange(r: DateTimeRange) returns (dates: seq<int>)
    ensures dates == CalendarDays(r)
  {
    var first := r.start / TicksPerDay;
    var last := r.end / TicksPerDay;
    dates := [];
    if first > last {
      return;
    }
    var current: Ticks := DateOf(r.start);
    dates := [current];
    while current < DateOf(r.end)
      invariant current == (first + |dates| - 1) * TicksPerDay
      invariant first + |dates| - 1 <= last
      invariant forall i :: 0 <= i < |dates| ==> dates[i] == (first + i) * TicksPerDay
      decreases DateOf(r.end) - current
    {
      current := current + TicksPerDay;
      dates := dates + [current];
    }
  }

  /** The range from `DateTime.MaxValue` to itself lists one date, so the
      as-written loop reaches `AddDays(1)` on 9999-12-31. */
  lemma MaxValueRangeReachesLastDay()
    ensures var r := DateTimeRange(MaxTicks, MaxTicks);
      && r.start / TicksPerDay <= r.end / TicksPerDay == LastDay
      && CalendarDays(r) == [LastDay * TicksPerDay]
      && AddOneDay(DateOf(MaxTicks)).Failure?
  {
  }
}

=== FILE: db_driver.dfy ===
/** The database driver as the transaction coordinator sees it: opaque
    connection and transaction objects, the isolation levels of
    `System.Data.IsolationLevel`, and a log of the calls made on them. */
module DbDriver {
  import opened Wrappers

  /** Identity of an object handed out at run time (a connection, a
      transaction or a transaction scope). Distinct objects have distinct refs. */
  type Ref = nat

  datatype IsolationLevel =
    | Unspecified
    | Chaos
    | ReadUncommitted
    | ReadCommitted
    | RepeatableRead
    | Serializable
    | Snapshot

  /** One call reaching the driver. `Begin` with `None` is the parameterless
      `BeginTransaction()`. */
  datatype Event =
    | NewConn(conn: Ref)
    | Begin(conn: Ref, tx: Ref, level: Option<IsolationLevel>)
    | Commit(tx: Ref)
    | Rollback(tx: Ref)
    | DisposeTx(tx: Ref)
    | DisposeConn(conn: Ref)

  datatype Kind = KNewConn | KBegin | KCommit | KRollback | KDisposeTx | KDisposeConn

  function KindOf(e: Event): Kind {
    match e
    case NewConn(_) => KNewConn
    case Begin(_, _, _) => KBegin
    case Commit(_) => KCommit
    case Rollback(_) => KRollback
    case DisposeTx(_) => KDisposeTx
    case DisposeConn(_) => KDisposeConn
  }

  /** True if the event names object `r`. */
  predicate Mentions(e: Event, r: Ref) {
    match e
    case NewConn(c) => c == r
    case Begin(c, t, _) => c == r || t == r
    case Commit(t) => t == r
    case Rollback(t) => t == r
    case DisposeTx(t) => t == r
    case DisposeConn(c) => c == r
  }

  /** True if every object the event names was allocated before `bound`. */
  predicate Below(e: Event, bound: Ref) {
    match e
    case NewConn(c) => c < bound
    case Begin(c, t, _) => c < bound && t < bound
    case Commit(t) => t < bound
    case Rollback(t) => t < bound
    case DisposeTx(t) => t < bound
    case DisposeConn(c) => c < bound
  }

  /** Number of calls of kind `k` in the log. */
  function Count(log: seq<Event>, k: Kind): nat
    decreases |log|
  {
    if |log| == 0 then 0
    else Count(log[..|log| - 1], k) + (if KindOf(log[|log| - 1]) == k then 1 else 0)
  }

  lemma {:induction false} CountAppend(a: seq<Event>, b: seq<Event>, k: Kind)
    ensures Count(a + b, k) == Count(a, k) + Count(b, k)
    decreases |b|
  {
    if |b| == 0 {
      assert a + b == a;
    } else {
      assert (a + b)[..|a + b| - 1] == a + b[..|b| - 1];
      CountAppend(a, b[..|b| - 1], k);
    }
  }

  /** Adding one call changes only the count of its own kind, by one. */
  lemma CountSnoc(log: seq<Event>, e: Event)
    ensures forall k :: Count(log + [e], k) == Count(log, k) + (if KindOf(e) == k then 1 else 0)
  {
    assert (log + [e])[..|log|] == log;
  }

  lemma CountSnoc2(log: seq<Event>, a: Event, b: Event)
    ensures forall k ::
              Count(log + [a, b], k) == Count(log, k) + (if KindOf(a) == k then 1 else 0) + (if KindOf(b) == k then 1 else 0)
  {
    CountSnoc(log, a);
    CountSnoc(log + [a], b);
    assert log + [a] + [b] == log + [a, b];
  }

  lemma CountSnoc3(log: seq<Event>, a: Event, b: Event, c: Event)
    ensures forall k ::
              Count(log + [a, b, c], k) ==
              Count(log, k) + (if KindOf(a) == k then 1 else 0) + (if KindOf(b) == k then 1 else 0)
                + (if KindOf(c) == k then 1 else 0)
  {
    CountSnoc2(log, a, b);
    CountSnoc(log + [a, b], c);
    assert log + [a, b] + [c] == log + [a, b, c];
  }

  /** Counting the calls made after a log prefix. */
  lemma CountSuffix(a: seq<Event>, b: seq<Event>, k: Kind)
    requires a <= b
    ensures Count(b, k) == Count(a, k) + Count(b[|a|..], k)
  {
    assert b == a + b[|a|..];
    CountAppend(a, b[|a|..], k);
  }

  // ---------------------------------------------------------------------------
  // The transaction protocol the coordinator follows

  /** Where the one coordinated transaction stands: none open; begun on
      connection `conn`; committed or rolled back; its transaction object
      disposed, its connection not yet. */
  datatype Phase =
    | Closed
    | Open(conn: Ref, tx: Ref)
    | Decided(conn: Ref, tx: Ref)
    | TxReleased(conn: Ref, tx: Ref)

  /** One call in the protocol, or `None` if the call breaks it. A `Begin` needs
      no transaction open; the outcome must name the open transaction; it is
      disposed next, then its connection. Creating a connection, and disposing
      one that is not the transaction's, are outside the protocol. */
  function Advance(p: Phase, e: Event): Option<Phase> {
    match e
    case NewConn(_) => Some(p)
    case Begin(c, t, _) => if p.Closed? then Some(Open(c, t)) else None
    case Commit(t) => if p.Open? && p.tx == t then Some(Decided(p.conn, t)) else None
    case Rollback(t) => if p.Open? && p.tx == t then Some(Decided(p.conn, t)) else None
    case DisposeTx(t) => if p.Decided? && p.tx == t then Some(TxReleased(p.conn, t)) else None
    case DisposeConn(c) =>
      if p.TxReleased? && p.conn == c then Some(Closed)
      else if !p.Closed? && p.conn == c then None
      else Some(p)
  }

  /** The phase a log leaves the protocol in, or `None` if some call broke it. */
  function Replay(log: seq<Event>): Option<Phase>
    decreases |log|
  {
    if |log| == 0 then Some(Closed)
    else
      match Replay(log[..|log| - 1])
      case None => None
      case Some(p) => Advance(p, log[|log| - 1])
  }

  lemma ReplaySnoc(log: seq<Event>, e: Event, p: Phase)
    requires Replay(log) == Some(p)
    ensures Replay(log + [e]) == Advance(p, e)
  {
    assert (log + [e])[..|log|] == log;
  }

  /** A `Commit` or `Rollback` that names no open transaction breaks the
      protocol, whatever came before. */
  lemma {:induction false} StrayOutcomeBreaksProtocol(log: seq<Event>, t: Ref)
    requires Replay(log) == Some(Closed)
    ensures Replay(log + [Commit(t)]).None? && Replay(log + [Rollback(t)]).None?
  {
    ReplaySnoc(log, Commit(t), Closed);
    ReplaySnoc(log, Rollback(t), Closed);
  }

  /** Opening a connection and beginning a transaction on it, from the closed
      phase, leaves that pair open. */
  lemma {:induction false} BeginOpens(log: seq<Event>, c: Ref, t: Ref, level: Option<IsolationLevel>)
    requires Replay(log) == Some(Closed)
    ensures Replay(log + [NewConn(c), Begin(c, t, level)]) == Some(Open(c, t))
  {
    ReplaySnoc(log, NewConn(c), Closed);
    ReplaySnoc(log + [NewConn(c)], Begin(c, t, level), Closed);
    assert log + [NewConn(c)] + [Begin(c, t, level)] == log + [NewConn(c), Begin(c, t, level)];
  }

  /** An outcome for the open transaction, its disposal and then its
      connection's close the pair. */
  lemma {:induction false} SettleCloses(log: seq<Event>, c: Ref, t: Ref, outcome: Event)
    requires Replay(log) == Some(Open(c, t))
    requires outcome == Commit(t) || outcome == Rollback(t)
    ensures Replay(log + [outcome, DisposeTx(t), DisposeConn(c)]) == Some(Closed)
  {
    ReplaySnoc(log, outcome, Open(c, t));
    ReplaySnoc(log + [outcome], DisposeTx(t), Decided(c, t));
    ReplaySnoc(log + [outcome] + [DisposeTx(t)], DisposeConn(c), TxReleased(c, t));
    assert log + [outcome] + [DisposeTx(t)] + [DisposeConn(c)] == log + [outcome, DisposeTx(t), DisposeConn(c)];
  }
}

=== FILE: shared_disposable.dfy ===
/** `SharedDisposableScope<T>` of `JS.Tools.SharedDisposable`: one disposable
    item shared by several owners, each holding a handle; the item is disposed
    when the last handle is released. The model is sequential: the scope's
    lock plays no part. `T` stands for the item's type; held disposables are
    object identities. */
module SharedDisposable {
  import opened Wrappers

  datatype Error = ArgumentNull | ObjectDisposed

  /** What the scope does to the objects in its care, in order. */
  datatype Event<T> =
    | ItemDisposed(item: T)       // `item.Dispose()`
    | OverrideInvoked(item: T)    // the dispose-action override, run instead
    | HeldDisposed(held: nat)     // `Dispose()` on a scope-held disposable

  /** The fields of the scope. `item` becomes `None` once disposed; `held` is
      `None` when no collection of scope-held disposables was given. */
  datatype SharedScope<T> = SharedScope(
    item: Option<T>,
    refCount: int,
    hasOverride: bool,
    held: Option<seq<nat>>,
    log: seq<Event<T>>)

  /** A handle's own copy of the item reference; `None` once it is disposed. */
  datatype Handle<T> = Handle(item: Option<T>)

  /** Number of times the item itself was disposed (directly or through the override). */
  function ItemDisposals<T>(log: seq<Event<T>>): nat
    decreases |log|
  {
    if |log| == 0 then 0
    else ItemDisposals(log[..|log| - 1]) + (if log[|log| - 1].HeldDisposed? then 0 else 1)
  }

  lemma {:induction false} ItemDisposalsAppend<T>(a: seq<Event<T>>, b: seq<Event<T>>)
    ensures ItemDisposals(a + b) == ItemDisposals(a) + ItemDisposals(b)
    decreases |b|
  {
    if |b| == 0 {
      assert a + b == a;
    } else {
      assert (a + b)[..|a + b| - 1] == a + b[..|b| - 1];
      ItemDisposalsAppend(a, b[..|b| - 1]);
    }
  }

  /** The events disposing the scope-held objects, in collection order. */
  function HeldEvents<T>(held: Option<seq<nat>>): (r: seq<Event<T>>)
    ensures ItemDisposals(r) == 0
  {
    match held
    case None => []
    case Some(ds) =>
      var r := seq(|ds|, i requires 0 <= i < |ds| => HeldDisposed(ds[i]));
      HeldEventsDisposeNoItem(r);
      r
  }

  lemma {:induction false} HeldEventsDisposeNoItem<T>(r: seq<Event<T>>)
    requires forall i :: 0 <= i < |r| ==> r[i].HeldDisposed?
    ensures ItemDisposals(r) == 0
    decreases |r|
  {
    if |r| > 0 {
      HeldEventsDisposeNoItem(r[..|r| - 1]);
    }
  }

  /** The constructors: a null item is refused; otherwise the scope holds the
      item and no handle has been issued yet. */
  function NewScope<T>(item: Option<T>, hasOverride: bool, held: Option<seq<nat>>): (r: Result<SharedScope<T>, Error>)
    ensures r.Failure? <==> item.None?
    ensures r.Failure? ==> r.error == ArgumentNull
    ensures r.Success? ==>
      && r.value.item == item && r.value.refCount == 0 && r.value.log == []
      && r.value.hasOverride == hasOverride && r.value.held == held
  {
    if item.None? then Failure(ArgumentNull)
    else Success(SharedScope(item, 0, hasOverride, held, []))
  }

  /** `GetHandle` on the scope: refused once the item is disposed, otherwise
      one more owner. */
  function GetHandle<T>(s: SharedScope<T>): (r: Result<(SharedScope<T>, Handle<T>), Error>)
    ensures r.Failure? <==> s.item.None?
    ensures r.Failure? ==> r.error == ObjectDisposed
    ensures r.Success? ==>
      r.value.0 == s.(refCount := s.refCount + 1) && r.value.1.item == s.item && r.value.1.item.Some?
  {
    if s.item.None? then Failure(ObjectDisposed)
    else Success((s.(refCount := s.refCount + 1), Handle(s.item)))
  }

  /** `DisposeItem`: the last owner disposes the item (or runs the override
      instead), clears it, and disposes every scope-held object; any other
      owner only decrements the count. */
  function DisposeItem<T>(s: SharedScope<T>): (r: SharedScope<T>)
    ensures s.item.None? ==> r == s
    ensures s.item.Some? && s.refCount != 1 ==> r == s.(refCount := s.refCount - 1)
    ensures s.item.Some? && s.refCount == 1 ==>
      && r.item.None? && r.refCount == 0
      && r == s.(item := None, refCount := 0, log := r.log)
      && r.log == s.log + [if s.hasOverride then OverrideInvoked(s.item.value) else ItemDisposed(s.item.value)]
                        + HeldEvents(s.held)
    ensures ItemDisposals(r.log) == ItemDisposals(s.log) + (if s.item.Some? && s.refCount == 1 then 1 else 0)
  {
    if s.item.None? then s
    else if s.refCount == 1 then
      var first := if s.hasOverride then OverrideInvoked(s.item.value) else ItemDisposed(s.item.value);
      var held := HeldEvents(s.held);
      ItemDisposalsAppend(s.log, [first]);
      ItemDisposalsAppend(s.log + [first], held);
      s.(item := None, refCount := 0, log := s.log + [first] + held)
    else s.(refCount := s.refCount - 1)
  }

  /** A handle's `Item`: its item, or `ObjectDisposedException` once disposed. */
  function HandleItem<T>(h: Handle<T>): (r: Result<T, Error>)
    ensures r.Success? <==> !HandleIsDisposed(h)
    ensures r.Success? ==> h.item == Some(r.value)
  {
    if h.item.None? then Failure(ObjectDisposed) else Success(h.item.value)
  }

  /** A handle's `IsDisposed`: every disposed handle is the same value, one
      that keeps no reference to the item it once shared. */
  function HandleIsDisposed<T>(h: Handle<T>): (r: bool)
    ensures r <==> h == Handle(None)
  {
    h.item.None?
  }

  /** A handle's `Dispose`: the first call releases the handle's share; later
      calls do nothing. */
  function HandleDispose<T>(s: SharedScope<T>, h: Handle<T>): (r: (SharedScope<T>, Handle<T>))
    ensures HandleIsDisposed(r.1)
    ensures HandleIsDisposed(h) ==> r == (s, h)
    ensures !HandleIsDisposed(h) ==> r.0 == DisposeItem(s)
  {
    if HandleIsDisposed(h) then (s, h)
    else (DisposeItem(s), Handle(None))
  }

  /** A handle's `GetHandle`: refused on a disposed handle, otherwise the
      scope issues a new one. */
  function HandleGetHandle<T>(s: SharedScope<T>, h: Handle<T>): (r: Result<(SharedScope<T>, Handle<T>), Error>)
    ensures HandleIsDisposed(h) ==> r == Failure(ObjectDisposed)
    ensures !HandleIsDisposed(h) ==> r == GetHandle(s)
  {
    if HandleIsDisposed(h) then Failure(ObjectDisposed)
    else GetHandle(s)
  }

  // ---------------------------------------------------------------------------
  // A scope together with every handle it issued

  datatype Pool<T> = Pool(scope: SharedScope<T>, handles: seq<Handle<T>>)

  /** One use of the pool: a handle from the scope, a handle from handle `i`,
      or the release of handle `i`. */
  datatype PoolOp = Issue | IssueFrom(i: nat) | Release(i: nat)

  predicate Addresses<T>(p: Pool<T>, op: PoolOp) {
    op.Issue? || op.i < |p.handles|
  }

  function PoolStep<T>(p: Pool<T>, op: PoolOp): Result<Pool<T>, Error>
    requires Addresses(p, op)
  {
    match op
    case Issue =>
      (match GetHandle(p.scope)
       case Failure(e) => Failure(e)
       case Success((s, h)) => Success(Pool(s, p.handles + [h])))
    case IssueFrom(i) =>
      (match HandleGetHandle(p.scope, p.handles[i])
       case Failure(e) => Failure(e)
       case Success((s, h)) => Success(Pool(s, p.handles + [h])))
    case Release(i) =>
      var (s, h) := HandleDispose(p.scope, p.handles[i]);
      Success(Pool(s, p.handles[i := h]))
  }

  /** Number of handles not yet disposed. */
  function Live<T>(hs: seq<Handle<T>>): nat
    decreases |hs|
  {
    if |hs| == 0 then 0
    else Live(hs[..|hs| - 1]) + (if HandleIsDisposed(hs[|hs| - 1]) then 0 else 1)
  }

  lemma LiveSnoc<T>(hs: seq<Handle<T>>, h: Handle<T>)
    ensures Live(hs + [h]) == Live(hs) + (if HandleIsDisposed(h) then 0 else 1)
  {
    assert (hs + [h])[..|hs|] == hs;
  }

  /** Disposing one live handle lowers the number of live handles by one. */
  lemma {:induction false} LiveRelease<T>(hs: seq<Handle<T>>, i: nat)
    requires i < |hs| && !HandleIsDisposed(hs[i])
    ensures Live(hs[i := Handle(None)]) == Live(hs) - 1
    decreases |hs|
  {
    var n := |hs| - 1;
    var updated := hs[i := Handle(None)];
    assert updated[..n] == if i < n then hs[..n][i := Handle(None)] else hs[..n];
    if i < n {
      LiveRelease(hs[..n], i);
    }
  }

  /** A live handle exists only while the scope still holds the item. */
  lemma {:induction false} LiveIsPositive<T>(hs: seq<Handle<T>>, i: nat)
    requires i < |hs| && !HandleIsDisposed(hs[i])
    ensures Live(hs) > 0
    decreases |hs|
  {
    if i < |hs| - 1 {
      LiveIsPositive(hs[..|hs| - 1], i);
    }
  }

  /** The accounting the scope keeps under sequential use: while the item is
      held, the count equals the number of live handles, which all see the item,
      some handle is live once one was issued, and the item has not been disposed; afterwards every issued handle has
      been released and the item was disposed exactly once. */
  ghost predicate Accounted<T>(p: Pool<T>) {
    && (p.scope.item.Some? ==>
          && p.scope.refCount == Live(p.handles)
          && (|p.handles| > 0 ==> Live(p.handles) > 0)
          && ItemDisposals(p.scope.log) == 0
          && (forall i :: 0 <= i < |p.handles| && !HandleIsDisposed(p.handles[i]) ==>
                p.handles[i].item == p.scope.item))
    && (p.scope.item.None? ==>
          p.scope.refCount == 0 && Live(p.handles) == 0 && |p.handles| > 0 && ItemDisposals(p.scope.log) == 1)
  }

  /** A new scope with no handles is accounted for. */
  lemma NewPoolAccounted<T>(item: Option<T>, hasOverride: bool, held: Option<seq<nat>>)
    requires item.Some?
    ensures Accounted(Pool(NewScope(item, hasOverride, held).value, []))
  {
  }

  /** Every pool operation keeps the accounting: the item is disposed by the
      release that brings the live handles to zero, exactly once, and never
      before; a release of a disposed handle changes nothing. */
  lemma PoolStepKeepsAccounting<T>(p: Pool<T>, op: PoolOp)
    requires Accounted(p) && Addresses(p, op)
    ensures PoolStep(p, op).Success? ==> Accounted(PoolStep(p, op).value)
    ensures PoolStep(p, op).Failure? <==>
      (op.Issue? && p.scope.item.None?) || (op.IssueFrom? && HandleIsDisposed(p.handles[op.i]))
    ensures op.Release? && !HandleIsDisposed(p.handles[op.i]) ==>
      var q := PoolStep(p, op).value;
      && Live(q.handles) == Live(p.handles) - 1
      && (q.scope.item.None? <==> Live(q.handles) == 0)
  {
    match op
    case Issue =>
      if p.scope.item.Some? {
        var (s, h) := GetHandle(p.scope).value;
        LiveSnoc(p.handles, h);
        var q := PoolStep(p, op).value;
        forall i | 0 <= i < |q.handles| && !HandleIsDisposed(q.handles[i])
          ensures q.handles[i].item == q.scope.item
        {
          if i < |p.handles| { assert q.handles[i] == p.handles[i]; }
        }
      }
    case IssueFrom(j) =>
      if !HandleIsDisposed(p.handles[j]) {
        LiveIsPositive(p.handles, j);
        var (s, h) := GetHandle(p.scope).value;
        LiveSnoc(p.handles, h);
        var q := PoolStep(p, op).value;
        forall i | 0 <= i < |q.handles| && !HandleIsDisposed(q.handles[i])
          ensures q.handles[i].item == q.scope.item
        {
          if i < |p.handles| { assert q.handles[i] == p.handles[i]; }
        }
      }
    case Release(j) =>
      if !HandleIsDisposed(p.handles[j]) {
        LiveIsPositive(p.handles, j);
        LiveRelease(p.handles, j);
        var q := PoolStep(p, op).value;
        forall i | 0 <= i < |q.handles| && !HandleIsDisposed(q.handles[i]) && q.scope.item.Some?
          ensures q.handles[i].item == q.scope.item
        {
          assert i != j && q.handles[i] == p.handles[i];
        }
      } else {
        assert p.handles[j := p.handles[j]] == p.handles;
      }
  }

  /** Number of handles already disposed. */
  function Released<T>(hs: seq<Handle<T>>): nat
    decreases |hs|
  {
    if |hs| == 0 then 0
    else Released(hs[..|hs| - 1]) + (if HandleIsDisposed(hs[|hs| - 1]) then 1 else 0)
  }

  lemma {:induction false} LivePlusReleased<T>(hs: seq<Handle<T>>)
    ensures Live(hs) + Released(hs) == |hs|
    decreases |hs|
  {
    if |hs| > 0 {
      LivePlusReleased(hs[..|hs| - 1]);
    }
  }

  /** Under the accounting, the item has been disposed (once) exactly when as
      many handles have been released as were issued, and at least one was. */
  lemma DisposedWhenAllReleased<T>(p: Pool<T>)
    requires Accounted(p)
    ensures ItemDisposals(p.scope.log) <= 1
    ensures ItemDisposals(p.scope.log) == 1 <==> |p.handles| > 0 && Released(p.handles) == |p.handles|
    ensures ItemDisposals(p.scope.log) == 1 <==> p.scope.item.None?
  {
    LivePlusReleased(p.handles);
  }
}

=== FILE: sql.dfy ===
/** The nested transaction-scope coordinator of `JS.Tools.Sql`: the manager
    (`SqlManager`), its participant scopes (`TransactionManager`) and the
    connection handles it lends out (`ManagedConnection`).

    Every object is an immutable value; an operation returns the next state.
    Calls that reach the database driver are appended to the manager's `log`,
    and new objects get their identity from the allocation counter `nextRef`.
    An operation that throws is a `Failure`; the public operations return the
    manager state after the throw alongside it (a `Step`). */
module Sql {
  import opened Wrappers
  import opened DbDriver

  datatype Error =
    | IsolationConflict            // another isolation level was requested while a manager transaction runs
    | OutOfOrderCompletion         // the completing scope is not the most recently registered one
    | NoRegisteredScope            // `Stack.Peek` on an empty scope stack
    | ManagerTransactionRunning    // BeginManagerTransaction while one is in progress
    | NoManagerTransaction         // EndManagerTransaction while none is in progress
    | DbTransactionStillOpen       // EndManagerTransaction while a database transaction is open
    | DbTransactionRunning         // BeginDbTransaction while one is open
    | NoDbTransaction              // EndDbTransaction while none is open
    | ScopeAlreadyComplete         // Complete or RollBack on a completed scope

  /** The fields of `SqlManager`. `scopes` is the stack of registered scopes,
      top last. `conn` and `tx` are the lazily created database pair. */
  datatype Manager = Manager(
    inProgress: bool,
    scopes: seq<Ref>,
    level: Option<IsolationLevel>,
    rollbackFlag: bool,
    conn: Option<Ref>,
    tx: Option<Ref>,
    dbTx: bool,
    nextRef: Ref,
    log: seq<Event>)

  /** Outcome of a public manager operation: the state afterwards and either a
      value or the error that was thrown. */
  datatype Step<T> = Step(mgr: Manager, result: Result<T, Error>)

  /** The database pair exists exactly while a database transaction is open, and
      every object the manager has named was allocated. */
  ghost predicate Coherent(m: Manager) {
    && (m.dbTx <==> m.conn.Some?)
    && (m.dbTx <==> m.tx.Some?)
    && (m.conn.Some? ==> m.conn.value < m.nextRef)
    && (m.tx.Some? ==> m.tx.value < m.nextRef)
    && (forall i :: 0 <= i < |m.log| ==> Below(m.log[i], m.nextRef))
  }

  /** The protocol phase the manager's own fields describe: the open pair, if any. */
  function PhaseOf(m: Manager): Phase {
    if m.conn.Some? && m.tx.Some? then Open(m.conn.value, m.tx.value) else Closed
  }

  /** The invariant of a manager reachable through its public surface:
      a manager transaction runs exactly while a scope is registered, a database
      transaction only inside a manager transaction; the driver's calls follow
      the transaction protocol and leave it where the manager's fields say
      (so every earlier `Begin` was followed by a `Commit` or `Rollback` of that
      transaction, then its disposal, then its connection's), and there are as
      many `Begin` calls as outcomes, plus the open one. */
  ghost predicate Valid(m: Manager) {
    && Coherent(m)
    && (m.inProgress <==> |m.scopes| > 0)
    && (m.dbTx ==> m.inProgress)
    && (forall i :: 0 <= i < |m.scopes| ==> m.scopes[i] < m.nextRef)
    && Replay(m.log) == Some(PhaseOf(m))
    && Count(m.log, KBegin) == Count(m.log, KCommit) + Count(m.log, KRollback) + (if m.dbTx then 1 else 0)
  }

  /** Balanced counts alone are not the invariant: a log whose one `Commit`
      names a transaction that was never begun breaks the protocol. */
  lemma StrayCommitIsNotValid()
    ensures !Valid(Manager(false, [], None, false, None, None, false, 6, [NewConn(0), Begin(0, 1, None), Commit(5)]))
  {
    var log := [NewConn(0), Begin(0, 1, None), Commit(5)];
    assert log[..2] == [NewConn(0), Begin(0, 1, None)];
    assert [NewConn(0), Begin(0, 1, None)][..1] == [NewConn(0)];
    assert Replay(log[..2]) == Some(Open(0, 1));
  }

  /** No manager transaction, no database pair. */
  predicate Idle(m: Manager) {
    !m.inProgress && m.scopes == [] && !m.dbTx && m.conn.None? && m.tx.None?
  }

  /** The top of the scope stack. */
  function Top(m: Manager): Ref
    requires |m.scopes| > 0
  {
    m.scopes[|m.scopes| - 1]
  }

  /** A freshly constructed manager (the configuration lookup is not modelled). */
  function NewManager(): (m: Manager)
    ensures Valid(m) && Idle(m)
    ensures !m.rollbackFlag && m.level.None? && m.log == []
  {
    Manager(false, [], None, false, None, None, false, 0, [])
  }

  // ---------------------------------------------------------------------------
  // Private helpers of SqlManager

  function BeginManagerTransaction(m: Manager, level: Option<IsolationLevel>): (r: Result<Manager, Error>)
    ensures r.Failure? <==> m.inProgress
    ensures r.Success? ==> r.value.inProgress && r.value.level == level && !r.value.rollbackFlag
    ensures r.Success? ==> r.value.scopes == m.scopes && r.value.log == m.log && r.value.dbTx == m.dbTx
    ensures r.Success? ==> r.value == m.(inProgress := true, level := level, rollbackFlag := false)
  {
    if m.inProgress then Failure(ManagerTransactionRunning)
    else Success(m.(inProgress := true, level := level, rollbackFlag := false))
  }

  function EndManagerTransaction(m: Manager): (r: Result<Manager, Error>)
    ensures r.Failure? <==> !m.inProgress || m.dbTx
    ensures r.Failure? && m.inProgress ==> r.error == DbTransactionStillOpen
    ensures r.Success? ==> !r.value.inProgress && r.value.log == m.log
    ensures r.Success? ==> r.value == m.(inProgress := false)
  {
    if !m.inProgress then Failure(NoManagerTransaction)
    else if m.dbTx then Failure(DbTransactionStillOpen)
    else Success(m.(inProgress := false))
  }

  /** Opens the real transaction on a new connection, at the recorded isolation
      level when there is one. */
  function BeginDbTransaction(m: Manager): (r: Result<Manager, Error>)
    requires Coherent(m)
    ensures r.Failure? <==> m.dbTx
    ensures r.Success? ==> Coherent(r.value) && r.value.dbTx
    ensures r.Success? ==>
      var c := r.value.conn.value;
      var t := r.value.tx.value;
      && c != t && m.nextRef <= c && m.nextRef <= t && m.nextRef <= r.value.nextRef
      && r.value.log == m.log + [NewConn(c), Begin(c, t, m.level)]
      && (forall i :: 0 <= i < |m.log| ==> !Mentions(m.log[i], c) && !Mentions(m.log[i], t))
    ensures r.Success? ==> r.value == m.(conn := r.value.conn, tx := r.value.tx, dbTx := true,
                                          nextRef := r.value.nextRef, log := r.value.log)
  {
    if m.dbTx then Failure(DbTransactionRunning)
    else
      var c := m.nextRef;
      var t := m.nextRef + 1;
      Success(m.(conn := Some(c), tx := Some(t), dbTx := true, nextRef := m.nextRef + 2,
                 log := m.log + [NewConn(c), Begin(c, t, m.level)]))
  }

  /** Disposes the transaction, then the connection, and forgets both. */
  function EndDbTransaction(m: Manager): (r: Result<Manager, Error>)
    requires Coherent(m)
    ensures r.Failure? <==> !m.dbTx
    ensures r.Success? ==> Coherent(r.value) && !r.value.dbTx
    ensures r.Success? ==> r.value.log == m.log + [DisposeTx(m.tx.value), DisposeConn(m.conn.value)]
    ensures r.Success? ==> r.value == m.(conn := None, tx := None, dbTx := false, log := r.value.log)
  {
    if m.dbTx then
      Success(m.(log := m.log + [DisposeTx(m.tx.value), DisposeConn(m.conn.value)],
                 tx := None, conn := None, dbTx := false))
    else Failure(NoDbTransaction)
  }

  /** The shared connection, if a database transaction is open. */
  function GetTransactionConnection(m: Manager): (c: Option<Ref>)
    requires Coherent(m)
    ensures c.Some? <==> m.dbTx
  {
    m.conn
  }

  /** The open database transaction, or none. */
  function GetTransaction(m: Manager): (t: Option<Ref>)
    requires Coherent(m)
    ensures t.Some? <==> m.dbTx
  {
    m.tx
  }

  /** A brand-new private connection from the provider factory. */
  function GetNonTransactionConnection(m: Manager): (r: (Manager, Ref))
    requires Coherent(m)
    ensures Coherent(r.0)
    ensures r.0.log == m.log + [NewConn(r.1)]
    ensures forall i :: 0 <= i < |m.log| ==> !Mentions(m.log[i], r.1)
    ensures m.conn != Some(r.1) && m.tx != Some(r.1)
    ensures m.nextRef <= r.1 < r.0.nextRef
    ensures r.0 == m.(nextRef := r.0.nextRef, log := r.0.log)
  {
    var c := m.nextRef;
    (m.(nextRef := m.nextRef + 1, log := m.log + [NewConn(c)]), c)
  }

  // ---------------------------------------------------------------------------
  // Scope registration and completion

  /** Registers scope `s` (an allocated object) requiring `required`. The first
      registration starts the manager transaction and records `required`, even
      when it is none; later ones must not ask for another level. */
  function Register(m: Manager, s: Ref, required: Option<IsolationLevel>): (r: Step<()>)
    requires Valid(m) && s < m.nextRef
    ensures r.result.Failure? <==> m.inProgress && required.Some? && required != m.level
    ensures r.result.Failure? ==> r.mgr == m && r.result.error == IsolationConflict
    ensures r.result.Success? ==> Valid(r.mgr) && r.mgr.inProgress && r.mgr.scopes == m.scopes + [s]
    ensures r.result.Success? ==>
      r.mgr.log == m.log && r.mgr.dbTx == m.dbTx && r.mgr.conn == m.conn && r.mgr.tx == m.tx
    ensures r.result.Success? ==> r.mgr.nextRef == m.nextRef
    ensures r.result.Success? && !m.inProgress ==> r.mgr.level == required && !r.mgr.rollbackFlag
    ensures r.result.Success? && m.inProgress ==>
      r.mgr.level == m.level && r.mgr.rollbackFlag == m.rollbackFlag
  {
    if !m.inProgress then
      match BeginManagerTransaction(m, required)
      case Failure(e) => Step(m, Failure(e))
      case Success(started) => Step(started.(scopes := started.scopes + [s]), Success(()))
    else if required.Some? && required != m.level then
      Step(m, Failure(IsolationConflict))
    else
      Step(m.(scopes := m.scopes + [s]), Success(()))
  }

  /** Ends the manager transaction, reporting the state reached if that throws. */
  function Finish(m: Manager): (r: Step<()>)
  {
    match EndManagerTransaction(m)
    case Failure(e) => Step(m, Failure(e))
    case Success(ended) => Step(ended, Success(()))
  }

  /** Deciding the open pair, then releasing it, leaves a manager that is valid
      once the manager transaction ends, with one more outcome in the log. */
  lemma SettledPairIsValid(p: Manager, outcome: Event)
    requires Coherent(p) && p.inProgress && p.scopes == [] && p.dbTx
    requires Count(p.log, KBegin) == Count(p.log, KCommit) + Count(p.log, KRollback) + 1
    requires Replay(p.log) == Some(PhaseOf(p))
    requires outcome == Commit(p.tx.value) || outcome == Rollback(p.tx.value)
    ensures var t := p.tx.value;
      var c := p.conn.value;
      var log := p.log + [outcome, DisposeTx(t), DisposeConn(c)];
      && Valid(p.(inProgress := false, conn := None, tx := None, dbTx := false, log := log))
      && Count(log, KBegin) == Count(p.log, KBegin)
      && Count(log, KCommit) == Count(p.log, KCommit) + (if outcome.Commit? then 1 else 0)
      && Count(log, KRollback) == Count(p.log, KRollback) + (if outcome.Rollback? then 1 else 0)
  {
    var t := p.tx.value;
    var c := p.conn.value;
    CountSnoc3(p.log, outcome, DisposeTx(t), DisposeConn(c));
    SettleCloses(p.log, c, t, outcome);
  }

  /** What happens once the last scope has been popped: an open database
      transaction is committed, or rolled back when the rollback flag is set,
      then disposed; the manager transaction ends. */
  function Settle(p: Manager): (r: Step<()>)
    requires Coherent(p) && p.inProgress && p.scopes == []
    requires Count(p.log, KBegin) == Count(p.log, KCommit) + Count(p.log, KRollback) + (if p.dbTx then 1 else 0)
    requires Replay(p.log) == Some(PhaseOf(p))
    ensures r.result.Success? && Valid(r.mgr) && Idle(r.mgr)
    ensures r.mgr == p.(inProgress := false, conn := None, tx := None, dbTx := false, log := r.mgr.log)
    ensures p.dbTx ==>
      var t := p.tx.value;
      r.mgr.log == p.log + [if p.rollbackFlag then Rollback(t) else Commit(t), DisposeTx(t), DisposeConn(p.conn.value)]
    ensures !p.dbTx ==> r.mgr.log == p.log
    // one outcome for an open database transaction, and no new one begun
    ensures Count(r.mgr.log, KBegin) == Count(p.log, KBegin)
    ensures Count(r.mgr.log, KCommit) == Count(p.log, KCommit) + (if p.dbTx && !p.rollbackFlag then 1 else 0)
    ensures Count(r.mgr.log, KRollback) == Count(p.log, KRollback) + (if p.dbTx && p.rollbackFlag then 1 else 0)
  {
    if p.dbTx then
      var t := p.tx.value;
      var outcome := if p.rollbackFlag then Rollback(t) else Commit(t);
      var decided := p.(log := p.log + [outcome]);
      match EndDbTransaction(decided)
      case Failure(e) => Step(decided, Failure(e))
      case Success(ended) =>
        SettledPairIsValid(p, outcome);
        assert ended == p.(conn := None, tx := None, dbTx := false,
                           log := p.log + [outcome, DisposeTx(t), DisposeConn(p.conn.value)]);
        Finish(ended)
    else Finish(p)
  }

  /** Completes scope `s`, which must be on top of the stack. When the stack
      drains, the open database transaction (if any) is committed, or rolled
      back if any scope of this manager transaction asked for it, then disposed. */
  function CompleteScope(m: Manager, s: Ref, rollback: bool): (r: Step<()>)
    requires Valid(m)
    ensures r.result.Failure? <==> |m.scopes| == 0 || Top(m) != s
    ensures r.result.Failure? ==> r.mgr == m
    ensures r.result.Failure? ==>
      r.result.error == (if |m.scopes| == 0 then NoRegisteredScope else OutOfOrderCompletion)
    ensures r.result.Success? ==> Valid(r.mgr) && r.mgr.scopes == m.scopes[..|m.scopes| - 1]
    ensures r.result.Success? ==> r.mgr.level == m.level && r.mgr.nextRef == m.nextRef
    ensures r.result.Success? ==> r.mgr.rollbackFlag == (m.rollbackFlag || rollback)
    // a scope that is not the last one only pops
    ensures r.result.Success? && |m.scopes| > 1 ==>
      r.mgr.inProgress && r.mgr.log == m.log && r.mgr.dbTx == m.dbTx && r.mgr.conn == m.conn && r.mgr.tx == m.tx
    // the last one settles the database transaction exactly once, then releases it
    ensures r.result.Success? && |m.scopes| == 1 ==> Idle(r.mgr)
    ensures r.result.Success? && |m.scopes| == 1 && m.dbTx ==>
      var t := m.tx.value;
      r.mgr.log == m.log + [if m.rollbackFlag || rollback then Rollback(t) else Commit(t),
                            DisposeTx(t), DisposeConn(m.conn.value)]
    ensures r.result.Success? && |m.scopes| == 1 && !m.dbTx ==> r.mgr.log == m.log
    // completing never begins a database transaction and settles at most the open one
    ensures r.result.Success? ==>
      var settles := |m.scopes| == 1 && m.dbTx;
      var rolledBack := m.rollbackFlag || rollback;
      && Count(r.mgr.log, KBegin) == Count(m.log, KBegin)
      && Count(r.mgr.log, KCommit) == Count(m.log, KCommit) + (if settles && !rolledBack then 1 else 0)
      && Count(r.mgr.log, KRollback) == Count(m.log, KRollback) + (if settles && rolledBack then 1 else 0)
  {
    if |m.scopes| == 0 then Step(m, Failure(NoRegisteredScope))
    else if Top(m) != s then Step(m, Failure(OutOfOrderCompletion))
    else
      var popped := m.(scopes := m.scopes[..|m.scopes| - 1], rollbackFlag := m.rollbackFlag || rollback);
      if popped.inProgress && |popped.scopes| == 0 then Settle(popped)
      else Step(popped, Success(()))
  }

  // ---------------------------------------------------------------------------
  // ManagedConnection

  /** The fields of `ManagedConnection`; `releaseOnDispose` says the handle owns
      its connection. */
  datatype Handle = Handle(connection: Option<Ref>, transaction: Option<Ref>, releaseOnDispose: bool)

  /** The `ManagedConnection` constructor: inside a manager transaction a
      participating handle borrows the shared pair, otherwise it owns a new
      private connection and has no transaction. */
  function NewManagedConnection(m: Manager, includeInTransaction: bool): (r: (Manager, Handle))
    requires Coherent(m)
    ensures Coherent(r.0)
    ensures includeInTransaction && m.inProgress ==>
      r.0 == m && r.1 == Handle(GetTransactionConnection(m), GetTransaction(m), false)
    ensures !(includeInTransaction && m.inProgress) ==>
      var c := r.1.connection;
      && r.1.releaseOnDispose && r.1.transaction.None? && c.Some?
      && r.0.log == m.log + [NewConn(c.value)]
      && c != m.conn && m.nextRef <= c.value
      && (forall i :: 0 <= i < |m.log| ==> !Mentions(m.log[i], c.value))
      && r.0 == m.(nextRef := r.0.nextRef, log := r.0.log)
  {
    if includeInTransaction && m.inProgress then
      (m, Handle(GetTransactionConnection(m), GetTransaction(m), false))
    else
      var (next, c) := GetNonTransactionConnection(m);
      (next, Handle(Some(c), None, true))
  }

  /** Beginning the database transaction inside a manager transaction keeps
      the invariant and adds exactly one `Begin`. */
  lemma BegunPairIsValid(m: Manager)
    requires Valid(m) && m.inProgress && !m.dbTx
    ensures BeginDbTransaction(m).Success?
    ensures var b := BeginDbTransaction(m).value;
      && Valid(b)
      && Count(b.log, KBegin) == Count(m.log, KBegin) + 1
      && Count(b.log, KCommit) == Count(m.log, KCommit)
      && Count(b.log, KRollback) == Count(m.log, KRollback)
  {
    var b := BeginDbTransaction(m).value;
    var c := b.conn.value;
    var t := b.tx.value;
    CountSnoc2(m.log, NewConn(c), Begin(c, t, m.level));
    BeginOpens(m.log, c, t, m.level);
  }

  /** Creating a private connection keeps the invariant and adds no `Begin`
      and no outcome. */
  lemma PrivateConnectionIsValid(m: Manager)
    requires Valid(m)
    ensures var p := GetNonTransactionConnection(m).0;
      && Valid(p)
      && Count(p.log, KBegin) == Count(m.log, KBegin)
      && Count(p.log, KCommit) == Count(m.log, KCommit)
      && Count(p.log, KRollback) == Count(m.log, KRollback)
  {
    var c := m.nextRef;
    var p := GetNonTransactionConnection(m).0;
    assert p == m.(nextRef := c + 1, log := m.log + [NewConn(c)]);
    assert PhaseOf(p) == PhaseOf(m);
    CountSnoc(m.log, NewConn(c));
    ReplaySnoc(m.log, NewConn(c), PhaseOf(m));
    assert forall i :: 0 <= i < |p.scopes| ==> p.scopes[i] < p.nextRef;
  }

  /** `SqlManager.CreateManagedConnection`: begins the database transaction
      lazily, on the first participating request inside a manager transaction. */
  function CreateManagedConnection(m: Manager, includeInTransaction: bool): (r: Step<Handle>)
    requires Valid(m)
    ensures r.result.Success? && Valid(r.mgr) && m.log <= r.mgr.log
    ensures r.mgr.scopes == m.scopes && r.mgr.inProgress == m.inProgress
    ensures r.mgr.level == m.level && r.mgr.rollbackFlag == m.rollbackFlag
    ensures r.mgr.dbTx == (m.dbTx || (includeInTransaction && m.inProgress))
    ensures m.dbTx ==> r.mgr.conn == m.conn && r.mgr.tx == m.tx
    // lazy begin: one Begin exactly when a participating request finds none open
    ensures Count(r.mgr.log, KBegin) ==
      Count(m.log, KBegin) + (if includeInTransaction && m.inProgress && !m.dbTx then 1 else 0)
    ensures Count(r.mgr.log, KCommit) == Count(m.log, KCommit)
    ensures Count(r.mgr.log, KRollback) == Count(m.log, KRollback)
    ensures includeInTransaction && m.inProgress && !m.dbTx ==>
      r.mgr.log == m.log + [NewConn(r.mgr.conn.value), Begin(r.mgr.conn.value, r.mgr.tx.value, m.level)]
    // a lazily begun pair is new: two distinct objects, neither allocated nor seen before
    ensures m.nextRef <= r.mgr.nextRef
    ensures includeInTransaction && m.inProgress && !m.dbTx ==>
      var c := r.mgr.conn.value;
      var t := r.mgr.tx.value;
      && c != t && m.nextRef <= c && m.nextRef <= t
      && (forall i :: 0 <= i < |m.log| ==> !Mentions(m.log[i], c) && !Mentions(m.log[i], t))
    // frames: borrowing an open pair changes nothing; otherwise only the named fields move
    ensures includeInTransaction && m.inProgress && m.dbTx ==> r.mgr == m
    ensures includeInTransaction && m.inProgress && !m.dbTx ==>
      r.mgr == m.(conn := r.mgr.conn, tx := r.mgr.tx, dbTx := true, nextRef := r.mgr.nextRef, log := r.mgr.log)
    ensures !(includeInTransaction && m.inProgress) ==>
      r.mgr == m.(nextRef := r.mgr.nextRef, log := r.mgr.log)
    // what the handle gets
    ensures var h := r.result.value;
      && (h.releaseOnDispose <==> !(includeInTransaction && m.inProgress))
      && (!h.releaseOnDispose ==>
            h.connection == r.mgr.conn && h.transaction == r.mgr.tx && h.connection.Some? && h.transaction.Some?)
      && (h.releaseOnDispose ==>
            && h.transaction.None? && h.connection.Some? && h.connection != r.mgr.conn
            && m.nextRef <= h.connection.value
            && r.mgr.log == m.log + [NewConn(h.connection.value)]
            && (forall i :: 0 <= i < |m.log| ==> !Mentions(m.log[i], h.connection.value)))
  {
    if includeInTransaction && m.inProgress && !m.dbTx then
      match BeginDbTransaction(m)
      case Failure(e) => Step(m, Failure(e))
      case Success(begun) =>
        var (next, h) := NewManagedConnection(begun, includeInTransaction);
        assert next == begun;
        BegunPairIsValid(m);
        Step(next, Success(h))
    else
      var (next, h) := NewManagedConnection(m, includeInTransaction);
      assert includeInTransaction && m.inProgress ==> next == m;
      PrivateConnectionIsValid(m);
      Step(next, Success(h))
  }

  /** `SqlManager.CreateManagedConnectionAsync`: the same logic under another name. */
  function CreateManagedConnectionAsync(m: Manager, includeInTransaction: bool): (r: Step<Handle>)
    requires Valid(m)
    ensures r == CreateManagedConnection(m, includeInTransaction)
  {
    if includeInTransaction && m.inProgress && !m.dbTx then
      match BeginDbTransaction(m)
      case Failure(e) => Step(m, Failure(e))
      case Success(begun) =>
        var (next, h) := NewManagedConnection(begun, includeInTransaction);
        Step(next, Success(h))
    else
      var (next, h) := NewManagedConnection(m, includeInTransaction);
      Step(next, Success(h))
  }

  /** `ManagedConnection.Dispose`: an owning handle disposes its transaction (if
      any) and then its connection (if any); a borrowing handle does nothing. */
  function DisposeManagedConnection(m: Manager, h: Handle): (r: Manager)
    ensures r == m.(log := r.log) && m.log <= r.log
    ensures !h.releaseOnDispose ==> r.log == m.log
    ensures forall i :: |m.log| <= i < |r.log| ==>
      (h.transaction.Some? && r.log[i] == DisposeTx(h.transaction.value)) ||
      (h.connection.Some? && r.log[i] == DisposeConn(h.connection.value))
    ensures h.releaseOnDispose ==>
      |r.log| - |m.log| == (if h.transaction.Some? then 1 else 0) + (if h.connection.Some? then 1 else 0)
    ensures h.releaseOnDispose && h.transaction.Some? ==> r.log[|m.log|] == DisposeTx(h.transaction.value)
    ensures h.releaseOnDispose && h.connection.Some? ==> r.log[|r.log| - 1] == DisposeConn(h.connection.value)
  {
    if h.releaseOnDispose then
      var afterTx := if h.transaction.Some? then m.log + [DisposeTx(h.transaction.value)] else m.log;
      var afterConn := if h.connection.Some? then afterTx + [DisposeConn(h.connection.value)] else afterTx;
      m.(log := afterConn)
    else m
  }

  // ---------------------------------------------------------------------------
  // TransactionManager

  /** The handles the manager gives out may be disposed at any time: a
      borrowing handle, or one owning a private connection that is not the
      shared one. Disposing such a handle keeps the invariant. */
  predicate Releasable(m: Manager, h: Handle) {
    h.releaseOnDispose ==>
      h.transaction.None? && h.connection.Some? && h.connection.value < m.nextRef && h.connection != m.conn
  }

  lemma DisposeKeepsValid(m: Manager, h: Handle)
    requires Valid(m) && Releasable(m, h)
    ensures Valid(DisposeManagedConnection(m, h))
  {
    if h.releaseOnDispose {
      var c := h.connection.value;
      assert DisposeManagedConnection(m, h).log == m.log + [DisposeConn(c)];
      CountSnoc(m.log, DisposeConn(c));
      ReplaySnoc(m.log, DisposeConn(c), PhaseOf(m));
    }
  }

  /** Releasing one handle leaves every other releasable handle releasable. */
  lemma ReleaseKeepsReleasable(m: Manager, other: Handle, h: Handle)
    requires Releasable(m, h)
    ensures Releasable(DisposeManagedConnection(m, other), h)
  {
  }

  /** A handle the manager has just issued is releasable. */
  lemma IssuedHandleIsReleasable(m: Manager, includeInTransaction: bool)
    requires Valid(m)
    ensures var st := CreateManagedConnection(m, includeInTransaction);
      Releasable(st.mgr, st.result.value)
  {
  }

  /** The fields of `TransactionManager`; `id` is the object's identity. */
  datatype Scope = Scope(id: Ref, requiredLevel: Option<IsolationLevel>, isComplete: bool)

  /** Outcome of a scope operation: manager and scope afterwards, and the result. */
  datatype ScopeStep = ScopeStep(mgr: Manager, scope: Scope, result: Result<(), Error>)

  /** The isolation level a scope demands from its constructor flag: repeatable
      read when asked for, otherwise none, so that the scope accepts whatever
      level the manager transaction runs at. */
  function RequiredLevelFor(repeatableReadLevelRequired: bool): (r: Option<IsolationLevel>)
    ensures r.Some? <==> repeatableReadLevelRequired
    ensures r.Some? ==> r.value == RepeatableRead
  {
    if repeatableReadLevelRequired then Some(RepeatableRead) else None
  }

  /** Allocating an object leaves the invariant intact. */
  lemma AllocationKeepsValid(m: Manager)
    requires Valid(m)
    ensures Valid(m.(nextRef := m.nextRef + 1))
  {
  }

  /** `SqlManager.CreateTransactionManager` and the `TransactionManager`
      constructor: allocate a scope and register it. */
  function CreateTransactionManager(m: Manager, repeatableReadLevelRequired: bool): (r: ScopeStep)
    requires Valid(m)
    ensures r.scope.requiredLevel == (if repeatableReadLevelRequired then Some(RepeatableRead) else None)
    ensures !r.scope.isComplete && r.scope.id !in m.scopes
    ensures r.result.Failure? <==>
      m.inProgress && repeatableReadLevelRequired && m.level != Some(RepeatableRead)
    ensures r.result.Failure? ==> r.result.error == IsolationConflict && r.mgr == m.(nextRef := m.nextRef + 1)
    ensures r.result.Success? ==> Valid(r.mgr) && r.mgr.inProgress && r.mgr.scopes == m.scopes + [r.scope.id]
    ensures r.result.Success? ==>
      r.mgr.log == m.log && r.mgr.dbTx == m.dbTx && r.mgr.conn == m.conn && r.mgr.tx == m.tx
    ensures r.result.Success? ==> r.mgr.nextRef == m.nextRef + 1
    ensures r.result.Success? && !m.inProgress ==> r.mgr.level == r.scope.requiredLevel && !r.mgr.rollbackFlag
    ensures r.result.Success? && m.inProgress ==>
      r.mgr.level == m.level && r.mgr.rollbackFlag == m.rollbackFlag
  {
    var s := Scope(m.nextRef, RequiredLevelFor(repeatableReadLevelRequired), false);
    AllocationKeepsValid(m);
    var counted := m.(nextRef := m.nextRef + 1);
    var st := Register(counted, s.id, s.requiredLevel);
    ScopeStep(st.mgr, s, st.result)
  }

  /** The shared body of `Complete` and `RollBack`: the scope becomes complete
      only once the manager call has returned. */
  function CompleteWith(m: Manager, s: Scope, rollback: bool): (r: ScopeStep)
    requires Valid(m)
  {
    if s.isComplete then ScopeStep(m, s, Failure(ScopeAlreadyComplete))
    else
      var st := CompleteScope(m, s.id, rollback);
      if st.result.Failure? then ScopeStep(st.mgr, s, st.result)
      else ScopeStep(st.mgr, s.(isComplete := true), Success(()))
  }

  /** `TransactionManager.Complete`. */
  function Complete(m: Manager, s: Scope): (r: ScopeStep)
    requires Valid(m)
    ensures r.result.Failure? <==> s.isComplete || |m.scopes| == 0 || Top(m) != s.id
    ensures r.result.Failure? ==> r.mgr == m && r.scope == s
    ensures s.isComplete ==> r.result == Failure(ScopeAlreadyComplete)
    ensures r.result.Success? ==>
      r.scope == s.(isComplete := true) && r.mgr == CompleteScope(m, s.id, false).mgr
  {
    CompleteWith(m, s, false)
  }

  /** `TransactionManager.RollBack`. */
  function RollBack(m: Manager, s: Scope): (r: ScopeStep)
    requires Valid(m)
    ensures r.result.Failure? <==> s.isComplete || |m.scopes| == 0 || Top(m) != s.id
    ensures r.result.Failure? ==> r.mgr == m && r.scope == s
    ensures s.isComplete ==> r.result == Failure(ScopeAlreadyComplete)
    ensures r.result.Success? ==>
      r.scope == s.(isComplete := true) && r.mgr == CompleteScope(m, s.id, true).mgr
  {
    CompleteWith(m, s, true)
  }

  /** `TransactionManager.Dispose`: an incomplete scope rolls back; a complete
      one is left alone. */
  function Dispose(m: Manager, s: Scope): (r: ScopeStep)
    requires Valid(m)
    ensures s.isComplete ==> r == ScopeStep(m, s, Success(()))
    ensures !s.isComplete ==>
      && (r.result.Failure? <==> |m.scopes| == 0 || Top(m) != s.id)
      && (r.result.Failure? ==> r.mgr == m && r.scope == s)
      && (r.result.Success? ==> r.scope == s.(isComplete := true) && r.mgr == CompleteScope(m, s.id, true).mgr)
  {
    if !s.isComplete then RollBack(m, s)
    else ScopeStep(m, s, Success(()))
  }
}

=== FILE: sql_runs.dfy ===
/** Properties of whole sequences of coordinator operations: what the driver
    sees over one manager transaction, how often a scope reaches the manager,
    and which objects a connection handle may release. */
module SqlRuns {
  import opened Wrappers
  import opened DbDriver
  import opened Sql

  // ---------------------------------------------------------------------------
  // Connection handles never release the shared pair

  /** A handle obtained from the manager and then disposed: a borrowing handle
      changes nothing, and an owning one releases exactly its own private
      connection, never the shared connection or transaction. */
  lemma HandleReleasesOnlyWhatItOwns(m: Manager, includeInTransaction: bool)
    requires Valid(m)
    ensures var st := CreateManagedConnection(m, includeInTransaction);
      var h := st.result.value;
      var after := DisposeManagedConnection(st.mgr, h);
      && after == st.mgr.(log := after.log)
      && (!h.releaseOnDispose ==> after == st.mgr)
      && (h.releaseOnDispose ==> after.log == st.mgr.log + [DisposeConn(h.connection.value)])
      && (forall i :: |st.mgr.log| <= i < |after.log| ==>
            (st.mgr.conn.Some? ==> !Mentions(after.log[i], st.mgr.conn.value)) &&
            (st.mgr.tx.Some? ==> !Mentions(after.log[i], st.mgr.tx.value)))
  {
  }

  /** The `using` pattern: a connection obtained from the manager and then
      disposed leaves a manager that satisfies the invariant, so the scope can
      go on to complete. */
  lemma ConnectThenReleaseKeepsValid(m: Manager, includeInTransaction: bool)
    requires Valid(m)
    ensures var st := CreateManagedConnection(m, includeInTransaction);
      Valid(DisposeManagedConnection(st.mgr, st.result.value))
  {
    var st := CreateManagedConnection(m, includeInTransaction);
    IssuedHandleIsReleasable(m, includeInTransaction);
    DisposeKeepsValid(st.mgr, st.result.value);
  }

  /** A handle stays releasable while the scope it was obtained in goes on: a
      scope's `Complete`, `RollBack` or `Dispose` never makes its private
      connection the shared one. */
  lemma CallKeepsReleasable(m: Manager, s: Scope, c: ScopeCall, h: Handle)
    requires Valid(m) && Releasable(m, h)
    ensures Releasable(Call(m, s, c).mgr, h)
  {
  }

  /** The same for a new scope registered while the handle is held. */
  lemma NewScopeKeepsReleasable(m: Manager, repeatableReadLevelRequired: bool, h: Handle)
    requires Valid(m) && Releasable(m, h)
    ensures Releasable(CreateTransactionManager(m, repeatableReadLevelRequired).mgr, h)
  {
  }

  // ---------------------------------------------------------------------------
  // A scope reaches the manager at most once

  datatype ScopeCall = CallComplete | CallRollBack | CallDispose

  /** The rollback argument each call forwards to the manager. */
  function ForwardsRollback(c: ScopeCall): bool {
    c != CallComplete
  }

  function Call(m: Manager, s: Scope, c: ScopeCall): ScopeStep
    requires Valid(m)
  {
    match c
    case CallComplete => Complete(m, s)
    case CallRollBack => RollBack(m, s)
    case CallDispose => Dispose(m, s)
  }

  /** The call completes the scope in the manager: the scope was still open and
      the manager accepted its completion. */
  predicate ReachesManager(m: Manager, s: Scope, c: ScopeCall)
    requires Valid(m)
  {
    !s.isComplete && CompleteScope(m, s.id, ForwardsRollback(c)).result.Success?
  }

  /** How many calls of a scope's lifetime complete it in the manager. Each
      call meets the manager in whatever state other code has left it. */
  function Completions(s: Scope, calls: seq<(Manager, ScopeCall)>): nat
    requires forall i :: 0 <= i < |calls| ==> Valid(calls[i].0)
    decreases |calls|
  {
    if |calls| == 0 then 0
    else
      var st := Call(calls[0].0, s, calls[0].1);
      (if ReachesManager(calls[0].0, s, calls[0].1) then 1 else 0) + Completions(st.scope, calls[1..])
  }

  /** Whatever mixture of `Complete`, `RollBack` and `Dispose` a scope receives,
      at most one of them completes it in the manager, and none if it was
      complete already. */
  lemma {:induction false} AtMostOneCompletion(s: Scope, calls: seq<(Manager, ScopeCall)>)
    requires forall i :: 0 <= i < |calls| ==> Valid(calls[i].0)
    ensures Completions(s, calls) <= (if s.isComplete then 0 else 1)
    decreases |calls|
  {
    if |calls| > 0 {
      var (m, c) := calls[0];
      var st := Call(m, s, c);
      if ReachesManager(m, s, c) {
        assert st.scope.isComplete;
      } else {
        assert st.scope == s;
      }
      AtMostOneCompletion(st.scope, calls[1..]);
    }
  }

  // ---------------------------------------------------------------------------
  // Runs of coordinator operations

  /** One public operation on the coordinator. `Leave` is a scope's completion
      (`Complete` forwards `rollback = false`; `RollBack` and `Dispose` of an
      open scope forward `true`). */
  datatype Op =
    | Enter(repeatableRead: bool)
    | Leave(scope: Ref, rollback: bool)
    | Connect(includeInTransaction: bool)

  function Apply(m: Manager, op: Op): (r: Result<Manager, Error>)
    requires Valid(m)
    ensures r.Success? ==> Valid(r.value) && m.log <= r.value.log
  {
    match op
    case Enter(rr) =>
      var st := CreateTransactionManager(m, rr);
      if st.result.Failure? then Failure(st.result.error) else Success(st.mgr)
    case Leave(s, rb) =>
      var st := CompleteScope(m, s, rb);
      if st.result.Failure? then Failure(st.result.error) else Success(st.mgr)
    case Connect(inc) =>
      Success(CreateManagedConnection(m, inc).mgr)
  }

  /** A held handle stays releasable across any coordinator operation: a
      lazily begun shared connection is a new object, never the handle's own. */
  lemma OpKeepsReleasable(m: Manager, op: Op, h: Handle)
    requires Valid(m) && Releasable(m, h) && Apply(m, op).Success?
    ensures Releasable(Apply(m, op).value, h)
  {
  }

  /** Applies the operations in order, stopping at the first that throws. */
  function Run(m: Manager, ops: seq<Op>): (r: Result<Manager, Error>)
    requires Valid(m)
    ensures r.Success? ==> Valid(r.value) && m.log <= r.value.log
    decreases |ops|
  {
    if |ops| == 0 then Success(m)
    else
      match Run(m, ops[..|ops| - 1])
      case Failure(e) => Failure(e)
      case Success(before) => Apply(before, ops[|ops| - 1])
  }

  predicate IsRollbackLeave(op: Op) {
    op.Leave? && op.rollback
  }

  predicate HasRollbackLeave(ops: seq<Op>) {
    exists i :: 0 <= i < |ops| && IsRollbackLeave(ops[i])
  }

  predicate HasParticipatingConnect(ops: seq<Op>) {
    exists i :: 0 <= i < |ops| && ops[i] == Connect(true)
  }

  lemma HasSnoc(ops: seq<Op>, op: Op)
    ensures HasRollbackLeave(ops + [op]) <==> HasRollbackLeave(ops) || IsRollbackLeave(op)
    ensures HasParticipatingConnect(ops + [op]) <==> HasParticipatingConnect(ops) || op == Connect(true)
  {
    var all := ops + [op];
    if HasRollbackLeave(ops) {
      var i :| 0 <= i < |ops| && IsRollbackLeave(ops[i]);
      assert all[i] == ops[i];
    }
    if HasParticipatingConnect(ops) {
      var i :| 0 <= i < |ops| && ops[i] == Connect(true);
      assert all[i] == ops[i];
    }
    if IsRollbackLeave(op) {
      assert all[|ops|] == op;
    }
    if op == Connect(true) {
      assert all[|ops|] == op;
    }
    if HasRollbackLeave(all) {
      var i :| 0 <= i < |all| && IsRollbackLeave(all[i]);
      if i < |ops| { assert ops[i] == all[i]; }
    }
    if HasParticipatingConnect(all) {
      var i :| 0 <= i < |all| && all[i] == Connect(true);
      if i < |ops| { assert ops[i] == all[i]; }
    }
  }

  /** Every nonempty prefix of `ops` runs without error and leaves a manager
      transaction in progress. */
  ghost predicate StaysInProgress(m0: Manager, ops: seq<Op>)
    requires Valid(m0)
    decreases |ops|
  {
    |ops| == 0 ||
    (StaysInProgress(m0, ops[..|ops| - 1]) && Run(m0, ops).Success? && Run(m0, ops).value.inProgress)
  }

  /** Running one more operation applies it to the state the others reached. */
  lemma RunSnoc(m: Manager, ops: seq<Op>, op: Op)
    requires Valid(m)
    ensures Run(m, ops + [op]) ==
      if Run(m, ops).Failure? then Failure(Run(m, ops).error) else Apply(Run(m, ops).value, op)
  {
    assert (ops + [op])[..|ops|] == ops;
  }

  /** A held handle stays releasable across a whole run of operations. */
  lemma {:induction false} RunKeepsReleasable(m: Manager, ops: seq<Op>, h: Handle)
    requires Valid(m) && Releasable(m, h) && Run(m, ops).Success?
    ensures Releasable(Run(m, ops).value, h)
    decreases |ops|
  {
    if |ops| > 0 {
      var init := ops[..|ops| - 1];
      RunKeepsReleasable(m, init, h);
      OpKeepsReleasable(Run(m, init).value, ops[|ops| - 1], h);
    }
  }

  /** The `using` block around other work: a connection obtained from the
      manager, then any run of operations, then its release, leaves a manager
      that satisfies the invariant. */
  lemma UsingBlockKeepsValid(m: Manager, includeInTransaction: bool, ops: seq<Op>)
    requires Valid(m)
    requires Run(CreateManagedConnection(m, includeInTransaction).mgr, ops).Success?
    ensures var st := CreateManagedConnection(m, includeInTransaction);
      Valid(DisposeManagedConnection(Run(st.mgr, ops).value, st.result.value))
  {
    var st := CreateManagedConnection(m, includeInTransaction);
    IssuedHandleIsReleasable(m, includeInTransaction);
    RunKeepsReleasable(st.mgr, ops, st.result.value);
    DisposeKeepsValid(Run(st.mgr, ops).value, st.result.value);
  }

  /** The operation that starts a manager transaction on an idle manager is a
      registration, and it calls no driver. */
  lemma FirstStepEnters(m0: Manager, op: Op)
    requires Valid(m0) && !m0.inProgress
    requires Apply(m0, op).Success? && Apply(m0, op).value.inProgress
    ensures op.Enter?
    ensures var m := Apply(m0, op).value;
      m.log == m0.log && !m.rollbackFlag && !m.dbTx && m.level == RequiredLevelFor(op.repeatableRead)
  {
  }

  /** One operation that keeps a manager transaction running: a rollback
      request sets the flag for good, a participating connection request opens
      the database transaction if none is open, and no outcome reaches the
      driver. */
  lemma StepInside(before: Manager, op: Op)
    requires Valid(before) && before.inProgress
    requires Apply(before, op).Success? && Apply(before, op).value.inProgress
    ensures var m := Apply(before, op).value;
      && m.rollbackFlag == (before.rollbackFlag || IsRollbackLeave(op))
      && m.dbTx == (before.dbTx || op == Connect(true))
      && Count(m.log, KBegin) == Count(before.log, KBegin) + (if !before.dbTx && op == Connect(true) then 1 else 0)
      && Count(m.log, KCommit) == Count(before.log, KCommit)
      && Count(m.log, KRollback) == Count(before.log, KRollback)
  {
    match op
    case Enter(rr) =>
    case Leave(s, rb) =>
      assert |before.scopes| > 1;
    case Connect(inc) =>
  }

  /** The same step by identity: the level stays, an open pair stays, and a
      newly opened pair's `Begin` is the latest call. */
  lemma StepInsideKeepsPair(before: Manager, op: Op)
    requires Valid(before) && before.inProgress
    requires Apply(before, op).Success? && Apply(before, op).value.inProgress
    ensures var m := Apply(before, op).value;
      && m.level == before.level
      && (before.dbTx ==> m.conn == before.conn && m.tx == before.tx)
      && (!before.dbTx && m.dbTx ==> |m.log| > 0 && m.log[|m.log| - 1] == Begin(m.conn.value, m.tx.value, m.level))
  {
    match op
    case Enter(rr) =>
    case Leave(s, rb) =>
      assert |before.scopes| > 1;
    case Connect(inc) =>
  }

  /** A call seen after position `lo` of a log is still there once the log grows. */
  lemma SeenLater(a: seq<Event>, b: seq<Event>, lo: nat, x: Event)
    requires a <= b && lo <= |a| && x in a[lo..]
    ensures x in b[lo..]
  {
    var i :| 0 <= i < |a[lo..]| && a[lo..][i] == x;
    assert b[lo..][i] == x;
  }

  /** The latest call of a log is among the calls after any earlier position. */
  lemma LatestSeen(log: seq<Event>, lo: nat)
    requires lo < |log|
    ensures log[|log| - 1] in log[lo..]
  {
    assert log[lo..][|log| - 1 - lo] == log[|log| - 1];
  }

  /** `StepInside` measured on the calls made since log `start`. */
  lemma StepInsideDelta(start: seq<Event>, before: Manager, op: Op)
    requires Valid(before) && before.inProgress && start <= before.log
    requires Apply(before, op).Success? && Apply(before, op).value.inProgress
    ensures var m := Apply(before, op).value;
      var d0 := before.log[|start|..];
      var d1 := m.log[|start|..];
      && m.rollbackFlag == (before.rollbackFlag || IsRollbackLeave(op))
      && m.dbTx == (before.dbTx || op == Connect(true))
      && Count(d1, KBegin) == Count(d0, KBegin) + (if !before.dbTx && op == Connect(true) then 1 else 0)
      && Count(d1, KCommit) == Count(d0, KCommit)
      && Count(d1, KRollback) == Count(d0, KRollback)
  {
    var m := Apply(before, op).value;
    StepInside(before, op);
    CountSuffix(start, before.log, KBegin);
    CountSuffix(start, before.log, KCommit);
    CountSuffix(start, before.log, KRollback);
    CountSuffix(start, m.log, KBegin);
    CountSuffix(start, m.log, KCommit);
    CountSuffix(start, m.log, KRollback);
  }

  /** Inside one manager transaction started from an idle manager: the rollback
      flag is set exactly when some scope has rolled back, a database
      transaction is open exactly when a participating connection was asked
      for, and the driver has seen at most that one `Begin` and no outcome.
      The level is the one the first scope asked for, and the open pair is the
      one the run's `Begin` named. */
  lemma {:induction false} InsideOneTransaction(m0: Manager, ops: seq<Op>)
    requires Valid(m0) && !m0.inProgress && |ops| > 0
    requires StaysInProgress(m0, ops)
    ensures Run(m0, ops).Success?
    ensures var m := Run(m0, ops).value;
      var delta := m.log[|m0.log|..];
      && (m.rollbackFlag <==> HasRollbackLeave(ops))
      && (m.dbTx <==> HasParticipatingConnect(ops))
      && Count(delta, KBegin) == (if m.dbTx then 1 else 0)
      && Count(delta, KCommit) == 0
      && Count(delta, KRollback) == 0
    decreases |ops|
  {
    var front := ops[..|ops| - 1];
    var op := ops[|ops| - 1];
    assert ops == front + [op];
    HasSnoc(front, op);
    RunSnoc(m0, front, op);
    if |ops| == 1 {
      assert front == [];
      assert Run(m0, ops) == Apply(m0, op);
      FirstStepEnters(m0, op);
      var m := Apply(m0, op).value;
      assert m.log[|m0.log|..] == [];
    } else {
      InsideOneTransaction(m0, front);
      var before := Run(m0, front).value;
      var m := Apply(before, op).value;
      assert Run(m0, ops) == Success(m);
      StepInsideDelta(m0.log, before, op);
    }
  }

  /** Inside one manager transaction started from an idle manager, the first
      operation was a registration, the level is the one that scope asked for,
      and an open pair is the one a `Begin` of this run named. */
  lemma {:induction false} OpenPairWasBegun(m0: Manager, ops: seq<Op>)
    requires Valid(m0) && !m0.inProgress && |ops| > 0
    requires StaysInProgress(m0, ops)
    ensures Run(m0, ops).Success? && ops[0].Enter?
    ensures var m := Run(m0, ops).value;
      && m.level == RequiredLevelFor(ops[0].repeatableRead)
      && (m.dbTx ==> Begin(m.conn.value, m.tx.value, m.level) in m.log[|m0.log|..])
    decreases |ops|
  {
    var front := ops[..|ops| - 1];
    var op := ops[|ops| - 1];
    assert ops == front + [op];
    RunSnoc(m0, front, op);
    if |ops| == 1 {
      assert front == [];
      assert Run(m0, ops) == Apply(m0, op);
      FirstStepEnters(m0, op);
    } else {
      OpenPairWasBegun(m0, front);
      assert front[0] == ops[0];
      var before := Run(m0, front).value;
      var m := Apply(before, op).value;
      assert Run(m0, ops) == Success(m);
      StepInsideKeepsPair(before, op);
      if before.dbTx {
        SeenLater(before.log, m.log, |m0.log|, Begin(m.conn.value, m.tx.value, m.level));
      } else if m.dbTx {
        LatestSeen(m.log, |m0.log|);
      }
    }
  }

  /** The operation that ends a manager transaction is the completion of its
      last scope; it adds exactly one outcome if a database transaction was
      open, `Rollback` when the flag or this scope asks for it. */
  lemma LastLeaveSettles(before: Manager, op: Op)
    requires Valid(before) && before.inProgress
    requires Apply(before, op).Success? && !Apply(before, op).value.inProgress
    ensures op.Leave? && |before.scopes| == 1
    ensures var m := Apply(before, op).value;
      var rolledBack := before.rollbackFlag || op.rollback;
      && Count(m.log, KBegin) == Count(before.log, KBegin)
      && Count(m.log, KCommit) == Count(before.log, KCommit) + (if before.dbTx && !rolledBack then 1 else 0)
      && Count(m.log, KRollback) == Count(before.log, KRollback) + (if before.dbTx && rolledBack then 1 else 0)
  {
  }

  /** The same completion call by call: the outcome for the open transaction,
      then its disposal and its connection's. */
  lemma LastLeaveClosesPair(before: Manager, op: Op)
    requires Valid(before) && before.inProgress
    requires Apply(before, op).Success? && !Apply(before, op).value.inProgress
    ensures op.Leave?
    ensures var m := Apply(before, op).value;
      var rolledBack := before.rollbackFlag || op.rollback;
      && (before.dbTx ==>
            var t := before.tx.value;
            m.log == before.log + [if rolledBack then Rollback(t) else Commit(t), DisposeTx(t), DisposeConn(before.conn.value)])
      && (!before.dbTx ==> m.log == before.log)
  {
  }

  /** One manager transaction, from the first registration on an idle manager
      until the stack drains again: the driver sees at most one `Begin`, and
      exactly when some participating connection was requested; each `Begin`
      is settled by exactly one `Commit` or `Rollback`; and the outcome is
      `Rollback` exactly when some scope rolled back, whatever the others did. */
  lemma {:induction false} OneOutcomePerManagerTransaction(m0: Manager, ops: seq<Op>)
    requires Valid(m0) && !m0.inProgress && |ops| > 1
    requires Run(m0, ops).Success? && !Run(m0, ops).value.inProgress
    requires StaysInProgress(m0, ops[..|ops| - 1])
    ensures var delta := Run(m0, ops).value.log[|m0.log|..];
      && Count(delta, KBegin) <= 1
      && Count(delta, KCommit) + Count(delta, KRollback) == Count(delta, KBegin)
      && (Count(delta, KBegin) == 1 <==> HasParticipatingConnect(ops))
      && (Count(delta, KRollback) == 1 <==> HasParticipatingConnect(ops) && HasRollbackLeave(ops))
      && (Count(delta, KCommit) == 1 <==> HasParticipatingConnect(ops) && !HasRollbackLeave(ops))
  {
    var m := Run(m0, ops).value;
    var front := ops[..|ops| - 1];
    var op := ops[|ops| - 1];
    BeforeTheLastLeave(m0, ops);
    InsideOneTransaction(m0, front);
    var before := Run(m0, front).value;
    LastLeaveSettles(before, op);
    CountSuffix(m0.log, before.log, KBegin);
    CountSuffix(m0.log, before.log, KCommit);
    CountSuffix(m0.log, before.log, KRollback);
    CountSuffix(m0.log, m.log, KBegin);
    CountSuffix(m0.log, m.log, KCommit);
    CountSuffix(m0.log, m.log, KRollback);
  }

  /** The calls the closing completion leaves after position `lo`, when the
      open pair's `Begin` came after it. */
  lemma ClosingCalls(lo: nat, before: Manager, op: Op, after: Manager, rolledBack: bool, level: Option<IsolationLevel>)
    requires Valid(before) && before.inProgress && lo <= |before.log|
    requires Apply(before, op) == Success(after) && !after.inProgress
    requires rolledBack == (before.rollbackFlag || IsRollbackLeave(op)) && level == before.level
    requires before.dbTx ==> Begin(before.conn.value, before.tx.value, before.level) in before.log[lo..]
    ensures op.Leave?
    ensures var delta := after.log[lo..];
      var n := |delta|;
      before.dbTx ==>
        && n >= 3 && delta[n - 2].DisposeTx? && delta[n - 1].DisposeConn?
        && var t := delta[n - 2].tx;
           var c := delta[n - 1].conn;
           && delta[n - 3] == (if rolledBack then Rollback(t) else Commit(t))
           && Begin(c, t, level) in delta[..n - 3]
  {
    LastLeaveClosesPair(before, op);
    if before.dbTx {
      var m := after;
      var t := before.tx.value;
      var tail := [if before.rollbackFlag || op.rollback then Rollback(t) else Commit(t), DisposeTx(t), DisposeConn(before.conn.value)];
      var delta := m.log[lo..];
      assert delta == before.log[lo..] + tail;
      assert delta[..|delta| - 3] == before.log[lo..];
    }
  }

  /** The state just before the last operation of one manager transaction,
      in terms of the operations: the flag, the open pair and its `Begin`. */
  lemma {:induction false} BeforeTheLastLeave(m0: Manager, ops: seq<Op>)
    requires Valid(m0) && !m0.inProgress && |ops| > 1
    requires Run(m0, ops).Success? && !Run(m0, ops).value.inProgress
    requires StaysInProgress(m0, ops[..|ops| - 1])
    ensures Run(m0, ops[..|ops| - 1]).Success?
    ensures var before := Run(m0, ops[..|ops| - 1]).value;
      var op := ops[|ops| - 1];
      && Valid(before) && before.inProgress
      && Apply(before, op) == Run(m0, ops)
      && (HasParticipatingConnect(ops) <==> before.dbTx)
      && (HasRollbackLeave(ops) <==> before.rollbackFlag || IsRollbackLeave(op))
      && ops[0].Enter? && before.level == RequiredLevelFor(ops[0].repeatableRead)
      && (before.dbTx ==> Begin(before.conn.value, before.tx.value, before.level) in before.log[|m0.log|..])
  {
    var front := ops[..|ops| - 1];
    var op := ops[|ops| - 1];
    assert ops == front + [op];
    HasSnoc(front, op);
    RunSnoc(m0, front, op);
    InsideOneTransaction(m0, front);
    OpenPairWasBegun(m0, front);
    assert front[0] == ops[0];
    LastLeaveClosesPair(Run(m0, front).value, op);
  }

  /** The same manager transaction, in order and by identity: when a
      participating connection was requested, the last three calls are the
      outcome for the begun transaction, its disposal and its connection's,
      and the `Begin` before them named that pair at the level the first scope
      asked for. Otherwise the driver saw no `Begin` and no outcome at all. */
  lemma {:induction false} OutcomeClosesTheBegunPair(m0: Manager, ops: seq<Op>)
    requires Valid(m0) && !m0.inProgress && |ops| > 1
    requires Run(m0, ops).Success? && !Run(m0, ops).value.inProgress
    requires StaysInProgress(m0, ops[..|ops| - 1])
    ensures ops[0].Enter?
    ensures var delta := Run(m0, ops).value.log[|m0.log|..];
      var n := |delta|;
      HasParticipatingConnect(ops) ==>
        && n >= 3 && delta[n - 2].DisposeTx? && delta[n - 1].DisposeConn?
        && var t := delta[n - 2].tx;
           var c := delta[n - 1].conn;
           && delta[n - 3] == (if HasRollbackLeave(ops) then Rollback(t) else Commit(t))
           && Begin(c, t, RequiredLevelFor(ops[0].repeatableRead)) in delta[..n - 3]
  {
    BeforeTheLastLeave(m0, ops);
    var before := Run(m0, ops[..|ops| - 1]).value;
    var op := ops[|ops| - 1];
    ClosingCalls(|m0.log|, before, op, Run(m0, ops).value, HasRollbackLeave(ops), RequiredLevelFor(ops[0].repeatableRead));
  }

  // ---------------------------------------------------------------------------
  // Concrete runs from a new manager. Scope `A` gets identity 0; the first
  // participating connection request allocates connection 1 and transaction 2.

  // The states the scenarios pass through.

  /** Scope A registered, nothing else. */
  function InsideA(): Manager {
    Manager(true, [0], None, false, None, None, false, 1, [])
  }

  /** Scope A registered and the database transaction begun. */
  function InsideAWithTransaction(): Manager {
    Manager(true, [0], None, false, Some(1), Some(2), true, 3, [NewConn(1), Begin(1, 2, None)])
  }

  /** Scope B (identity 3) registered inside scope A. */
  function InsideAAndB(): Manager {
    InsideAWithTransaction().(scopes := [0, 3], nextRef := 4)
  }

  lemma EnterA()
    ensures Apply(NewManager(), Enter(false)) == Success(InsideA())
    ensures Valid(InsideA())
  {
    assert Register(NewManager().(nextRef := 1), 0, None) == Step(InsideA(), Success(()));
  }

  lemma ConnectInsideA()
    requires Valid(InsideA())
    ensures Apply(InsideA(), Connect(true)) == Success(InsideAWithTransaction())
    ensures Valid(InsideAWithTransaction())
  {
    var m := InsideAWithTransaction();
    var a := InsideA();
    var b := BeginDbTransaction(a);
    assert b.Success?;
    assert b.value.log == [NewConn(1), Begin(1, 2, None)];
    assert b.value.nextRef == 3;
    assert b.value == m;
    assert NewManagedConnection(m, true) == (m, Handle(Some(1), Some(2), false));
  }

  lemma EnterB()
    requires Valid(InsideAWithTransaction())
    ensures Apply(InsideAWithTransaction(), Enter(false)) == Success(InsideAAndB())
    ensures Valid(InsideAAndB())
  {
    var m := InsideAWithTransaction();
    assert Register(m.(nextRef := 4), 3, None) == Step(InsideAAndB(), Success(()));
  }

  lemma LeaveB()
    requires Valid(InsideAAndB())
    ensures Apply(InsideAAndB(), Leave(3, false)) == Success(InsideAWithTransaction().(nextRef := 4))
    ensures Valid(InsideAWithTransaction().(nextRef := 4))
  {
    assert [0, 3][..1] == [0];
  }

  /** A run that reached `mid` and one more operation that succeeds from `mid`. */
  lemma RunExtends(m: Manager, ops: seq<Op>, op: Op, mid: Manager, next: Manager)
    requires Valid(m) && Valid(mid)
    requires Run(m, ops) == Success(mid) && Apply(mid, op) == Success(next)
    ensures Run(m, ops + [op]) == Success(next)
  {
    RunSnoc(m, ops, op);
  }

  /** Scope A, a participating connection and a nested scope B: the driver has
      seen one connection and one `Begin`, and both scopes are on the stack. */
  lemma NestedScopesOpen()
    ensures Run(NewManager(), [Enter(false), Connect(true), Enter(false)]) == Success(InsideAAndB())
  {
    ConnectedInsideA();
    EnterB();
    RunExtends(NewManager(), [Enter(false), Connect(true)], Enter(false), InsideAWithTransaction(), InsideAAndB());
    assert [Enter(false), Connect(true)] + [Enter(false)] == [Enter(false), Connect(true), Enter(false)];
  }

  /** Scope A alone. */
  lemma EnteredA()
    ensures Run(NewManager(), [Enter(false)]) == Success(InsideA())
    ensures Valid(InsideA())
  {
    EnterA();
    RunExtends(NewManager(), [], Enter(false), NewManager(), InsideA());
    assert [] + [Enter(false)] == [Enter(false)];
  }

  /** Scope A and a participating connection. */
  lemma ConnectedInsideA()
    ensures Run(NewManager(), [Enter(false), Connect(true)]) == Success(InsideAWithTransaction())
    ensures Valid(InsideAWithTransaction())
  {
    var m0 := NewManager();
    EnteredA();
    ConnectInsideA();
    RunExtends(m0, [Enter(false)], Connect(true), InsideA(), InsideAWithTransaction());
    assert [Enter(false)] + [Connect(true)] == [Enter(false), Connect(true)];
  }

  /** After B completes inside A: A alone again, the transaction still open. */
  lemma NestedScopeBLeft()
    ensures Run(NewManager(), [Enter(false), Connect(true), Enter(false), Leave(3, false)])
      == Success(InsideAWithTransaction().(nextRef := 4))
    ensures Valid(InsideAWithTransaction().(nextRef := 4))
  {
    var front := [Enter(false), Connect(true), Enter(false)];
    NestedScopesOpen();
    ConnectedInsideA();
    EnterB();
    LeaveB();
    RunExtends(NewManager(), front, Leave(3, false), InsideAAndB(), InsideAWithTransaction().(nextRef := 4));
    assert front + [Leave(3, false)] == [Enter(false), Connect(true), Enter(false), Leave(3, false)];
  }

  /** Scope A, a participating connection, a nested scope B (identity 3), then
      B and A complete: one `Begin`, one `Commit`, then both are disposed. */
  lemma NestedScopesCommitOnce()
    ensures var r := Run(NewManager(), [Enter(false), Connect(true), Enter(false), Leave(3, false), Leave(0, false)]);
      && r.Success? && Idle(r.value)
      && r.value.log == [NewConn(1), Begin(1, 2, None), Commit(2), DisposeTx(2), DisposeConn(1)]
  {
    var front := [Enter(false), Connect(true), Enter(false), Leave(3, false)];
    var m4 := InsideAWithTransaction().(nextRef := 4);
    NestedScopeBLeft();
    var last := Apply(m4, Leave(0, false));
    assert last.Success? && Idle(last.value);
    RunExtends(NewManager(), front, Leave(0, false), m4, last.value);
    assert front + [Leave(0, false)] == [Enter(false), Connect(true), Enter(false), Leave(3, false), Leave(0, false)];
  }

  /** Scope A rolled back with the transaction open: everything released. */
  function RolledBackA(): Manager {
    Manager(false, [], None, true, None, None, false, 3,
            [NewConn(1), Begin(1, 2, None), Rollback(2), DisposeTx(2), DisposeConn(1)])
  }

  lemma RollBackA()
    requires Valid(InsideAWithTransaction())
    ensures Apply(InsideAWithTransaction(), Leave(0, true)) == Success(RolledBackA())
    ensures Valid(RolledBackA()) && Idle(RolledBackA())
  {
    var m := InsideAWithTransaction();
    var st := CompleteScope(m, 0, true);
    assert Top(m) == 0;
    assert m.log + [Rollback(2), DisposeTx(2), DisposeConn(1)] == RolledBackA().log;
    assert st.mgr == RolledBackA();
  }

  /** Scope A, a participating connection, then A rolls back: one `Begin`, one
      `Rollback`, both disposed, and the manager is idle again. */
  lemma AbortedScopeRollsBackOnce()
    ensures var r := Run(NewManager(), [Enter(false), Connect(true), Leave(0, true)]);
      && r.Success? && Idle(r.value)
      && r.value.log == [NewConn(1), Begin(1, 2, None), Rollback(2), DisposeTx(2), DisposeConn(1)]
  {
    var m0 := NewManager();
    var m2 := InsideAWithTransaction();
    ConnectedInsideA();
    RollBackA();
    var ops := [Enter(false), Connect(true), Leave(0, true)];
    assert [Enter(false), Connect(true)] + [Leave(0, true)] == ops;
    RunExtends(m0, [Enter(false), Connect(true)], Leave(0, true), m2, RolledBackA());
    assert Run(m0, ops) == Success(RolledBackA());
  }

  /** Scope A completes without any connection request: the driver is never
      called. */
  lemma UnusedScopeNeverCallsTheDriver()
    ensures var r := Run(NewManager(), [Enter(false), Leave(0, false)]);
      r.Success? && Idle(r.value) && r.value.log == []
  {
    var m0 := NewManager();
    EnteredA();
    var last := Apply(InsideA(), Leave(0, false));
    assert last.Success? && Idle(last.value);
    RunExtends(m0, [Enter(false)], Leave(0, false), InsideA(), last.value);
    assert [Enter(false)] + [Leave(0, false)] == [Enter(false), Leave(0, false)];
  }
}

=== FILE: wrappers.dfy ===
/** Optional values and success-or-error results shared by every module of the model.
    A C# `null` becomes `None`; a thrown exception becomes `Failure`. */
module Wrappers {

  datatype Option<+T> = None | Some(value: T)

  datatype Result<+T, +E> = Success(value: T) | Failure(error: E)
}
